=== FILE: README.md ===
# A verified model of the cc-plugin-mcp plugin service

cc-plugin-mcp serves agent plugins from a local marketplaces directory.
Each marketplace is a directory holding `.claude-plugin/marketplace.json`, and
that manifest lists plugins. Each plugin declares a `source` directory and
arrays of `skills`, `agents` and `commands` entries. `PluginService`
does the following:

- lists every plugin;
- describes one plugin;
- finds the marketplace directory of a plugin through a 128-entry LRU memo table;
- loads element files (a skill's `SKILL.md`, an agent or command markdown file)
  after checking that the path cannot escape the plugin's source directory.

`models.py` validates plugin names, element types and element names.

This project restates that core in Dafny as pure functions over immutable
data and proves what the service promises about them:

| module | file | what it holds |
|---|---|---|
| `Wrappers` | `wrappers.dfy` | `Option` and `Result` (raised exceptions become `Err`) |
| `Collections` | `collections.dfy` | abort-on-first-error map, filter-map, first-match search, and a run of steps that threads a state (the memo table) through a sequence, with their laws |
| `Paths` | `paths.dfy` | path strings as segments; `Path.name`, `Path.stem`, lexical `Path.resolve()`; the path guard `_validate_safe_path` |
| `Models` | `models.dfy` | the validators and records of `models.py`; the service's errors |
| `Manifests` | `manifests.dfy` | the file system as a map, parsed manifests, the marketplace scan shared by listing, describe and lookup |
| `Lru` | `lru.dfy` | `functools.lru_cache(maxsize=128)` as a bounded least-recently-used table |
| `PluginIndex` | `plugin_index.dfy` | element-name extraction, the listing, `describe_plugin`, `find_plugin_in_marketplace`, the memoised directory lookup |
| `Loader` | `loader.dfy` | `_resolve_element_path`, `load_plugin_element`, `load_plugin_elements` |

Modelling choices:

- The file system is a snapshot `map<Path, Node>`. A directory lists its children in `iterdir()` order, so the scan order is an input. A file's content is either its text or `Unreadable`, which stands for an `OSError` on open or read.
- A path is a sequence of segments below the root. `Path.resolve()` is lexical: `""` and `.` are dropped, `..` removes the last segment, and the root is its own parent.
- `Path.stem` follows Python 3.12: the final suffix is removed only when its dot is neither the first nor the last character of the name.
- JSON decoding is a function in the environment (`Env.parse`) that maps manifest text to `Unparsable` or to a parsed manifest.
- Every service call takes the environment explicitly. Calls that use the memo table take the table and return the new table with the result.
- A raised exception is an `Err` value. Python's "falsy" tests are spelled out: `""`, an absent key, and an empty list or object.

## Model

| member | source | states |
|---|---|---|
| `Paths.ValidateSafePath` | src/cc_plugin_mcp/services/plugin_service.py:31-55 | The guard accepts iff the resolved join is the resolved base or lies below it, and then returns exactly that resolved join, which is canonical (no `.`/`..`/empty segments); every other input, absolute or mixed, is refused with the "Invalid path" error for that relative path |
| `Paths.GuardAcceptsDescending` | src/cc_plugin_mcp/services/plugin_service.py:45-55 | A relative path with no `..` is always accepted: the result is the resolved base followed by the path's kept segments, its last component is the input's `Path.name`, and a path that names nothing resolves to the base |
| `Paths.GuardRejectsClimb` | src/cc_plugin_mcp/services/plugin_service.py:45-55 | A relative path that climbs `k` levels and then descends fewer than `k` plain levels, against a base at least `k` deep, is refused |
| `Paths.TraversalRefused` | tests/test_api.py:152-162 | `../../../etc/passwd` is refused against every base at least three levels deep |
| `Paths.AbsoluteAttemptRefused` | src/cc_plugin_mcp/services/plugin_service.py:45-53 | The absolute path `/etc/passwd` replaces the base when joined and is refused against every base other than the root `/` that is not under `/etc` |
| `Paths.AbsoluteIgnoresBase` | src/cc_plugin_mcp/services/plugin_service.py:45-46 | Joining an absolute path discards the base: what is resolved is the absolute path alone |
| `Paths.NestedPathAccepted` | tests/test_api.py:180-197 | `plugins/test-plugin/SKILL.md` is accepted below any base and resolves to base + `plugins`/`test-plugin`/`SKILL.md` |
| `Paths.ResolveIdempotent` | src/cc_plugin_mcp/services/plugin_service.py:45-46 | Resolving a resolved path changes nothing, so the guard compares canonical paths |
| `Paths.Stem` | src/cc_plugin_mcp/services/plugin_service.py:135-138 | The stem is a prefix of the name; when it differs, the name continues with a dot that is neither first nor last and no later dot; and whenever such a last dot exists, the stem is the text before it |
| `Paths.StemOfFile` | src/cc_plugin_mcp/services/plugin_service.py:135-138 | `dir/x.ext` (no dot in `ext`, no separator in `x`) has stem `x` |
| `Paths.SplitThenJoin` | src/cc_plugin_mcp/services/plugin_service.py:46 | Cutting a path string at its separators loses nothing: re-joining the pieces gives the string back |
| `Models.ParseCategory` | src/cc_plugin_mcp/services/plugin_service.py:359-363 | A request spelling denotes a category exactly when it is `skills`, `agents` or `commands`, and then spells that category |
| `Models.ValidatePluginName` | src/cc_plugin_mcp/models.py:17-31 | A name is accepted iff it is non-empty, at most 256 characters, and every character is alphanumeric, `-` or `_`; it is returned unchanged; the empty name reports the empty error and an over-long name reports the length error whatever its characters |
| `Models.ValidateElementType` | src/cc_plugin_mcp/models.py:40-49 | A type is accepted iff it is `skills`, `agents` or `commands`, and returned unchanged; otherwise the error names the given type |
| `Models.ValidateElementName` | src/cc_plugin_mcp/models.py:51-59 | A name is accepted iff it is non-empty and at most 256 characters, with no character restriction, and returned unchanged; the empty-name error arises iff the name is empty and the too-long error iff it exceeds 256 characters |
| `Manifests.ReadMarketplace` | src/cc_plugin_mcp/services/plugin_service.py:85-119 | A marketplace is read iff it is a directory whose manifest is a readable file that parses; it then carries the manifest's plugins in array order and the manifest's own `owner` and `metadata` |
| `Manifests.ScanDirs` | src/cc_plugin_mcp/services/plugin_service.py:84-119 | The scan keeps exactly the marketplaces that read successfully: each kept one is one of the candidates and reads back as itself, and every candidate that reads is kept |
| `Manifests.ScanDirsConcat` | src/cc_plugin_mcp/services/plugin_service.py:84-119 | The scan keeps the directory order: scanning `a + b` is scanning `a` then `b` |
| `Manifests.Scan` | src/cc_plugin_mcp/services/plugin_service.py:77-84 | A missing root scans as empty; the scan fails (`NotADirectory`) exactly when the root is a file; every marketplace found is a child of the root that reads back as itself; for a directory root the scan is the in-order filter of its children in `iterdir` order, and every child that reads as a marketplace is in it |
| `Manifests.AllPluginsConcat` | src/cc_plugin_mcp/services/plugin_service.py:98-113 | The flattened plugin list of `a + b` is that of `a` followed by that of `b` (marketplace order, then array order, duplicates kept) |
| `Lru.Touch` | src/cc_plugin_mcp/services/plugin_service.py:223 | A hit keeps the table valid and the same size and changes no lookup's answer. The hit pair becomes the most recently used, and the other pairs keep their least-to-most-recent order. A missing key leaves the table unchanged |
| `Lru.Insert` | src/cc_plugin_mcp/services/plugin_service.py:223 | A miss stores its answer as the most recently used pair while keeping at most 128 pairs with distinct keys, and no other key's value changes. Below capacity the table is the old pairs in order followed by the new one. At capacity the least recently used pair is evicted and the rest keep their order |
| `Lru.GetIsMembership` | src/cc_plugin_mcp/services/plugin_service.py:223 | In a table with distinct keys a lookup finds exactly the stored pair |
| `PluginIndex.ExtractNames` | src/cc_plugin_mcp/services/plugin_service.py:123-144 | At most one name per entry; when all entries are path strings, the i-th name is the i-th entry's stem; no nameable entry gives no names; every name comes from some entry |
| `PluginIndex.ExtractNamesConcat` | src/cc_plugin_mcp/services/plugin_service.py:134-143 | Names follow the entry order: extracting from `a + b` is extracting from `a` then `b` |
| `PluginIndex.ExtractNamesSingle` | src/cc_plugin_mcp/services/plugin_service.py:134-143 | A path string contributes its stem, an object with `name` contributes that name, anything else contributes nothing |
| `PluginIndex.PathEntryListedByStem` | src/cc_plugin_mcp/services/plugin_service.py:135-138 | An entry such as `./SKILL.md` is listed as `SKILL` |
| `PluginIndex.SummarizeAll` | src/cc_plugin_mcp/services/plugin_service.py:98-113 | The summaries succeed iff every plugin's summary does, with one summary per plugin in order; on failure the error is that of the first plugin that fails |
| `PluginIndex.ListPlugins` | src/cc_plugin_mcp/services/plugin_service.py:57-121 | A missing root lists nothing; a root that is a file raises; the listing succeeds iff every scanned plugin's name is valid, and then has one row per scanned plugin in scan order whose name, description and element names are those of the plugin |
| `PluginIndex.NamesDecideListing` | src/cc_plugin_mcp/services/plugin_service.py:106-119 | Among the manifest shapes the model represents (string `name` and `description`, string or string-named entries), only an invalid plugin name makes the listing fail; that `ValueError` is not among the caught exceptions |
| `PluginIndex.SummarizeAllConcat` | src/cc_plugin_mcp/services/plugin_service.py:84-113 | Listing two groups of plugins is listing each and concatenating |
| `PluginIndex.ListingConcatenatesMarketplaces` | src/cc_plugin_mcp/services/plugin_service.py:84-121 | The listing of two runs of marketplaces is the concatenation of their listings, in marketplace order |
| `PluginIndex.FindIn` | src/cc_plugin_mcp/services/plugin_service.py:179-180 | The position found holds a plugin with the requested name and no earlier plugin has it; no position means no plugin has it |
| `PluginIndex.FindInConcat` | src/cc_plugin_mcp/services/plugin_service.py:171-188 | The first match in `a + b` is the first in `a`, else the first in `b` shifted past `a` |
| `PluginIndex.FirstMatch` | src/cc_plugin_mcp/services/plugin_service.py:165-188 | The match is in the first marketplace that lists the name, at that marketplace's first plugin of that name |
| `PluginIndex.FirstMatchIsFirstInScanOrder` | src/cc_plugin_mcp/services/plugin_service.py:165-195 | Searching marketplace by marketplace finds nothing iff the flattened scan has no plugin of that name, and otherwise finds the flattened scan's first such plugin |
| `PluginIndex.OrElse` | src/cc_plugin_mcp/services/plugin_service.py:185-186 | `a or b` on optional objects: the result is `a` when `a` is truthy (present and non-empty) and `b` otherwise, and it is truthy iff `a` or `b` is |
| `PluginIndex.DescribePlugin` | src/cc_plugin_mcp/services/plugin_service.py:146-195 | A missing root or no match is not-found, and a root that is a file raises. Describe succeeds iff some scanned plugin has the name. The detail has the requested name and exactly one plugin. That plugin is the first of that name in the first marketplace, in scan order, that lists it. The detail takes that marketplace's owner, and its metadata is the plugin's own or, failing that, that marketplace's |
| `PluginIndex.DescribeReturnsFirstInScanOrder` | src/cc_plugin_mcp/services/plugin_service.py:165-192 | The described plugin is the first plugin of that name in the flattened scan |
| `PluginIndex.DescribedPluginIsListed` | src/cc_plugin_mcp/services/plugin_service.py:57-121 | A plugin that can be described appears in the listing whenever the listing succeeds |
| `PluginIndex.FindPluginInMarketplace` | src/cc_plugin_mcp/services/plugin_service.py:197-220 | Not-found becomes `None`, other errors propagate; a definition is returned iff `describe_plugin` succeeds, and it is the described plugin |
| `PluginIndex.LocateUncached` | src/cc_plugin_mcp/services/plugin_service.py:224-261 | A missing root gives `None`; it raises iff the root is a file; a directory found holds a readable, parsable manifest that lists the plugin, and is the first marketplace in scan order that does; `None` is returned iff the scan succeeds and no marketplace lists the name |
| `PluginIndex.LocateAgreesWithDescribe` | src/cc_plugin_mcp/services/plugin_service.py:224-261 | The lookup finds a directory iff `describe_plugin` succeeds, and gives `None` iff describe is not-found. The marketplace found supplies the described plugin, its owner and its metadata fallback |
| `PluginIndex.FindPluginMarketplaceDir` | src/cc_plugin_mcp/services/plugin_service.py:222-286 | A cached key answers from the table without scanning; a miss answers what a scan answers; every answer, `None` included, is in the table afterwards; an error leaves the table unchanged; the table stays valid with at most 128 entries. A hit refreshes the key's recency exactly as `Lru.Touch` does, and a miss that answers stores it exactly as `Lru.Insert` does, so no other pair is lost except by eviction at capacity |
| `PluginIndex.EmptyCacheConsistent` | src/cc_plugin_mcp/services/plugin_service.py:223 | The fresh table agrees with a scan of any file system |
| `PluginIndex.CachedLookupMatchesScan` | src/cc_plugin_mcp/services/plugin_service.py:222-286 | While the file system is unchanged, the memoised lookup returns the same first-matching directory, or `None`, as an uncached scan, and the table stays consistent |
| `PluginIndex.RepeatedLookupIsStable` | src/cc_plugin_mcp/services/plugin_service.py:222-286 | Once a lookup has answered, repeating it for the same key returns the identical answer even if the file system changed |
| `Loader.ResolveElementPath` | src/cc_plugin_mcp/services/plugin_service.py:288-337 | A resolved path requires that the entry's stem or the entry itself equals the requested name. The path is a canonical regular file below the resolved plugin source directory. A guard refusal resolves to nothing. Skills take a directory's `SKILL.md` only when that file exists, or a regular file as itself. Agents and commands take only the guarded regular file. Every such file is found |
| `Loader.TraversalEntryNeverResolves` | src/cc_plugin_mcp/services/plugin_service.py:315-321 | An entry `../../../etc/passwd` never resolves against a plugin directory at least three levels deep |
| `Loader.LoadFromEntries` | src/cc_plugin_mcp/services/plugin_service.py:386-416 | A loaded element has the category and requested name, a path that is a regular file below the plugin source directory and that some entry resolves to, and that file's text as content; when no entry resolves the result is nothing |
| `Loader.ReadElement` | src/cc_plugin_mcp/services/plugin_service.py:398-416 | Reading a resolved file yields an element iff the file holds text, and then the element carries the category, the requested name, the path and that text |
| `Loader.LoadReadsFirstResolvingEntry` | src/cc_plugin_mcp/services/plugin_service.py:386-422 | When entry `i` is the first that resolves (earlier entries, including non-string ones, resolve to nothing), the loop's result is the read of entry `i`'s file: later entries are not tried, even when that file cannot be read |
| `Loader.LoadWithDir` | src/cc_plugin_mcp/services/plugin_service.py:366-422 | The result is nothing when the directory is unknown, the definition missing, `source` empty or the category list empty, and it raises iff the root is a file. Otherwise it is the entry loop's result over the definition's entries for the category. A loaded element lies below the definition's source directory, has the category and requested name, and carries the file's text |
| `Loader.LoadPluginElement` | src/cc_plugin_mcp/services/plugin_service.py:339-422 | An unknown type raises before any lookup and leaves the table untouched; the invalid-type error only arises from a type the validator refuses; a loaded element carries the requested type and name and its file's text; a lookup that answered is in the table. A known type loads through the directory the memo table answered, stale or not, with the plugin definition read afresh, and leaves the table as the lookup left it |
| `Loader.LoadPluginElementUncached` | src/cc_plugin_mcp/services/plugin_service.py:339-422 | Without the table, a load raises iff the type is unknown or the root is a file, gives nothing for a missing root, and loads only plugins that `describe_plugin` finds |
| `Loader.LoadFindsReadableElement` | src/cc_plugin_mcp/services/plugin_service.py:360-416 | When the plugin is found, its `source` is set, and entry `i` is the first to resolve to a file holding text, the load returns that text with the requested type, the requested name and that path |
| `Loader.LoadIsCacheTransparent` | src/cc_plugin_mcp/services/plugin_service.py:365-368 | While the file system is unchanged, the memoised load returns what the uncached load returns, and the table stays consistent |
| `Loader.RequestType` | src/cc_plugin_mcp/services/plugin_service.py:442 | The type is the `type` value when that is a non-empty string, else the `element_type` value; it is empty iff both are absent or empty |
| `Loader.LoadPluginElements` | src/cc_plugin_mcp/services/plugin_service.py:424-456 | Never more elements than requests, and the table stays valid. While the file system agrees with the table, the batch returns what the uncached map-and-filter returns, and the table stays consistent |
| `Loader.SkippedBatchIsIdle` | src/cc_plugin_mcp/services/plugin_service.py:440-446 | A batch whose every request lacks a type or a name returns `[]` and leaves the table untouched |
| `Loader.BatchElementsAreRequested` | src/cc_plugin_mcp/services/plugin_service.py:440-456 | Each element of a successful batch comes from a non-skipped request with that type and name, and carries the text of the regular file at its path |
| `Loader.LoadPluginElementsUncached` | src/cc_plugin_mcp/services/plugin_service.py:440-456 | The batch succeeds iff every request's load does, and otherwise the error is that of the first request that fails. Every returned element is some request's load result. Every request that loads has its element in the batch |
| `Loader.BatchSingle` | src/cc_plugin_mcp/services/plugin_service.py:440-454 | A skipped request contributes nothing. Otherwise the request contributes its single load's element, nothing when that load finds nothing, or that load's error |
| `Loader.BatchConcatenates` | src/cc_plugin_mcp/services/plugin_service.py:440-456 | A batch over `a + b` returns `a`'s elements then `b`'s. Together with `Loader.BatchSingle`, this makes the batch the in-order concatenation of what each request contributes |
| `Loader.InvalidTypeFailsBatch` | src/cc_plugin_mcp/services/plugin_service.py:440-456 | A single non-skipped request with an unknown type makes the whole batch fail |

## Left out

- `src/cc_plugin_mcp/main.py`: the HTTP/MCP transport, the mapping of exceptions to status codes, and server startup are not part of this model.
- Real I/O is not modelled: the file system is a snapshot map, and `iterdir()` order is an input.
- Symbolic links are not modelled: `Path.resolve()` is lexical.
- `Path.resolve()` on a relative marketplaces directory depends on the process's working directory. The model takes the root as an absolute path.
- The root is taken to be canonical, with no `.`, `..` or empty segments. The scan looks children up under the root as given, while the loader looks files up under resolved paths, and the two agree only for a canonical root.
- JSON decoding is the `Env.parse` parameter. Object values such as `owner` and `metadata` are abstracted to string maps.
- Manifest shapes that make the source raise `AttributeError` or `TypeError` are not modelled. Examples: a `plugins` value that is not an array, a plugin that is not an object, or a non-string `source` in a load. A non-string plugin `name` raises nothing in `describe_plugin` and the directory lookup: the `==` comparison is false and the entry is skipped. The model has only string names, so it does not represent such an entry.
- A `skills`, `agents` or `commands` value that is a string or an object rather than an array is not modelled. The source iterates over it without raising, over the string's characters or the object's keys (src/cc_plugin_mcp/services/plugin_service.py:134, 386). The listing then names one element per character or key, and the load tries each as an entry. Each category is modelled as a sequence of entries.
- Manifest values that make pydantic reject a `PluginInfo` (src/cc_plugin_mcp/models.py:11-15) are not modelled: a `description` that is `null` or not a string, and an object entry whose `name` is not a string. The source lets that `ValidationError` escape the listing (src/cc_plugin_mcp/services/plugin_service.py:106-119); the model cannot represent these values, so its listing never fails on them.
- A file that is not valid UTF-8 makes `read()` raise `UnicodeDecodeError`, which the source does not catch. A file is modelled as either text or an `OSError`.
- Logging calls are left out.
- The thread safety of `functools.lru_cache` is left out: the table is used by one caller at a time.
- The `self._marketplace_cache` dictionary (src/cc_plugin_mcp/services/plugin_service.py:29) is never used, so it is not modelled.
- `PluginDetail` validation by pydantic is not modelled: `owner` and `metadata` must be objects or `None` (src/cc_plugin_mcp/models.py:84-95).
- `LoadedElement.path` holds `str(path)`. The model keeps the resolved path as segments.
- `Models.ValidatePluginName`: `str.isalnum` is approximated by ASCII letters and digits. Non-ASCII letters and digits, which Python also accepts, are refused by the model.
- `PluginIndex.FindPluginMarketplaceDir`: the table key is `(str(marketplaces_dir), plugin_name)`. It is modelled as the root's segments and the name, which identifies the same directories only because roots are taken as already absolute.

=== FILE: collections.dfy ===
/**
 * Element-wise traversals the service's loops are built from: a map that
 * aborts on the first error, a map that drops what yields nothing, a
 * first-match search, and a stateful run of steps that threads a state
 * through the elements.
 */
module Collections {
  import opened Wrappers

  /** Apply `f` to each element in order; the first error aborts the whole traversal. */
  function MapAll<A, B, E>(f: A -> Result<B, E>, xs: seq<A>): (r: Result<seq<B>, E>)
    ensures r.Ok? <==> forall i :: 0 <= i < |xs| ==> f(xs[i]).Ok?
    ensures r.Ok? ==> |r.value| == |xs| && forall i :: 0 <= i < |xs| ==> f(xs[i]) == Ok(r.value[i])
    ensures r.Err? ==> exists i :: 0 <= i < |xs| && f(xs[i]) == Err(r.error) && (forall j :: 0 <= j < i ==> f(xs[j]).Ok?)
    decreases |xs|
  {
    if xs == [] then Ok([])
    else
      match f(xs[0])
      case Err(e) => Err(e)
      case Ok(y) =>
        match MapAll(f, xs[1..])
        case Err(e) => Err(e)
        case Ok(ys) => Ok([y] + ys)
  }

  /** A traversal of `a + b` that succeeds is the traversal of `a` followed by that of `b`. */
  lemma MapAllConcat<A, B, E>(f: A -> Result<B, E>, a: seq<A>, b: seq<A>)
    requires MapAll(f, a).Ok? && MapAll(f, b).Ok?
    ensures MapAll(f, a + b) == Ok(MapAll(f, a).value + MapAll(f, b).value)
  {
    var ab := a + b;
    var ya, yb := MapAll(f, a).value, MapAll(f, b).value;
    forall i | 0 <= i < |ab| ensures f(ab[i]) == Ok((ya + yb)[i]) {
      if i < |a| {
        assert ab[i] == a[i];
      } else {
        assert ab[i] == b[i - |a|];
      }
    }
    MapAllUnique(f, ab, ya + yb);
  }

  /** A traversal's result is determined by its elements' results. */
  lemma MapAllUnique<A, B, E>(f: A -> Result<B, E>, xs: seq<A>, ys: seq<B>)
    requires |ys| == |xs| && forall i :: 0 <= i < |xs| ==> f(xs[i]) == Ok(ys[i])
    ensures MapAll(f, xs) == Ok(ys)
  {
    var r := MapAll(f, xs);
    assert r.Ok?;
    assert r.value == ys;
  }

  /** Apply `f` to each element in order, keeping the values it yields. */
  function FilterMap<A, B>(f: A -> Option<B>, xs: seq<A>): (r: seq<B>)
    ensures |r| <= |xs|
    ensures (forall i :: 0 <= i < |xs| ==> f(xs[i]).Some?) ==>
      |r| == |xs| && forall i :: 0 <= i < |xs| ==> r[i] == f(xs[i]).value
    ensures (forall i :: 0 <= i < |xs| ==> f(xs[i]).None?) ==> r == []
    ensures forall y :: y in r ==> exists i :: 0 <= i < |xs| && f(xs[i]) == Some(y)
    decreases |xs|
  {
    if xs == [] then []
    else
      var rest := FilterMap(f, xs[1..]);
      assert forall i :: 1 <= i < |xs| ==> xs[1..][i - 1] == xs[i];
      match f(xs[0])
      case Some(y) => [y] + rest
      case None => rest
  }

  /** Nothing `f` yields is dropped. */
  lemma {:induction false} FilterMapKeepsAll<A, B>(f: A -> Option<B>, xs: seq<A>, i: nat)
    requires i < |xs| && f(xs[i]).Some?
    ensures f(xs[i]).value in FilterMap(f, xs)
    decreases i
  {
    if i > 0 {
      assert xs[1..][i - 1] == xs[i];
      FilterMapKeepsAll(f, xs[1..], i - 1);
    }
  }

  /** Filtering works element by element: it distributes over concatenation. */
  lemma {:induction false} FilterMapConcat<A, B>(f: A -> Option<B>, a: seq<A>, b: seq<A>)
    ensures FilterMap(f, a + b) == FilterMap(f, a) + FilterMap(f, b)
    decreases |a|
  {
    if a == [] {
      assert a + b == b;
    } else {
      assert (a + b)[0] == a[0] && (a + b)[1..] == a[1..] + b;
      FilterMapConcat(f, a[1..], b);
      var tail := FilterMap(f, a[1..]);
      if f(a[0]).Some? {
        var y := f(a[0]).value;
        assert [y] + (tail + FilterMap(f, b)) == ([y] + tail) + FilterMap(f, b);
      }
    }
  }

  /** What `target` gives for the first element it gives something for. */
  function FirstSome<A, T>(target: A -> Option<T>, xs: seq<A>): (r: Option<T>)
    ensures r.None? <==> forall i :: 0 <= i < |xs| ==> target(xs[i]).None?
    ensures r.Some? ==> exists i :: 0 <= i < |xs| && target(xs[i]) == r
    decreases |xs|
  {
    if xs == [] then None
    else if target(xs[0]).Some? then target(xs[0])
    else
      var r := FirstSome(target, xs[1..]);
      assert forall i :: 1 <= i < |xs| ==> xs[1..][i - 1] == xs[i];
      r
  }

  /** The search stops at the first element `target` gives something for. */
  lemma {:induction false} FirstSomeIsFirst<A, T>(target: A -> Option<T>, xs: seq<A>, i: nat)
    requires i < |xs| && target(xs[i]).Some?
    requires forall j :: 0 <= j < i ==> target(xs[j]).None?
    ensures FirstSome(target, xs) == target(xs[i])
    decreases i
  {
    if i > 0 {
      assert xs[1..][i - 1] == xs[i];
      assert forall j :: 0 <= j < i - 1 ==> xs[1..][j] == xs[j + 1];
      FirstSomeIsFirst(target, xs[1..], i - 1);
    }
  }

  /** From any state satisfying `inv`, `step` is defined and lands in a state satisfying `inv` again. */
  ghost predicate Preserves<S(!new), A(!new), B, E>(inv: S -> bool, step: (S, A) --> (Result<Option<B>, E>, S)) {
    forall s, a :: inv(s) ==> step.requires(s, a) && inv(step(s, a).1)
  }

  /**
   * Run `step` on each element in order, threading the state and keeping the
   * values the steps yield; the first error aborts the run with the state
   * reached so far.
   */
  function Thread<S(!new), A(!new), B, E>(inv: S -> bool, step: (S, A) --> (Result<Option<B>, E>, S), s: S, xs: seq<A>)
    : (out: (Result<seq<B>, E>, S))
    requires inv(s) && Preserves(inv, step)
    ensures inv(out.1)
    ensures out.0.Ok? ==> |out.0.value| <= |xs|
    decreases |xs|
  {
    if xs == [] then (Ok([]), s)
    else
      var one := step(s, xs[0]);
      match one.0
      case Err(e) => (Err(e), one.1)
      case Ok(found) =>
        var rest := Thread(inv, step, one.1, xs[1..]);
        match rest.0
        case Err(e) => (Err(e), rest.1)
        case Ok(more) => (Ok((if found.Some? then [found.value] else []) + more), rest.1)
  }

  /** Every value a step yields for `a` from a state satisfying `inv` satisfies `good(a, _)`. */
  ghost predicate YieldsOnly<S(!new), A(!new), B, E>(inv: S -> bool, step: (S, A) --> (Result<Option<B>, E>, S), good: (A, B) -> bool)
    requires Preserves(inv, step)
  {
    forall s, a :: inv(s) && step(s, a).0.Ok? && step(s, a).0.value.Some? ==> good(a, step(s, a).0.value.value)
  }

  /** A successful run keeps only values some step yielded for one of the elements. */
  lemma {:induction false} ThreadYields<S(!new), A(!new), B, E>(inv: S -> bool, step: (S, A) --> (Result<Option<B>, E>, S), good: (A, B) -> bool, s: S, xs: seq<A>)
    requires inv(s) && Preserves(inv, step) && YieldsOnly(inv, step, good)
    ensures Thread(inv, step, s, xs).0.Ok? ==>
      forall b :: b in Thread(inv, step, s, xs).0.value ==> exists a :: a in xs && good(a, b)
    decreases |xs|
  {
    if xs != [] {
      var one := step(s, xs[0]);
      if one.0.Ok? {
        var tail := xs[1..];
        ThreadYields(inv, step, good, one.1, tail);
        var rest := Thread(inv, step, one.1, tail);
        if rest.0.Ok? {
          forall b | b in Thread(inv, step, s, xs).0.value ensures exists a :: a in xs && good(a, b) {
            if one.0.value.Some? && b == one.0.value.value {
              assert xs[0] in xs && good(xs[0], b);
            } else {
              assert b in rest.0.value;
              var a :| a in tail && good(a, b);
              assert a in xs;
            }
          }
        }
      }
    }
  }

  /** Elements on which every step is a no-op leave the run empty and the state untouched. */
  lemma {:induction false} ThreadIdle<S(!new), A(!new), B, E>(inv: S -> bool, step: (S, A) --> (Result<Option<B>, E>, S), idle: A -> bool, s: S, xs: seq<A>)
    requires inv(s) && Preserves(inv, step)
    requires forall s', a :: inv(s') && idle(a) ==> step(s', a) == (Ok(None), s')
    requires forall i :: 0 <= i < |xs| ==> idle(xs[i])
    ensures Thread(inv, step, s, xs) == (Ok([]), s)
    decreases |xs|
  {
    if xs != [] {
      assert idle(xs[0]);
      ThreadIdle(inv, step, idle, s, xs[1..]);
    }
  }

  /** A run reaching an element on which every step fails does not succeed. */
  lemma {:induction false} ThreadAborts<S(!new), A(!new), B, E>(inv: S -> bool, step: (S, A) --> (Result<Option<B>, E>, S), s: S, xs: seq<A>, k: nat)
    requires inv(s) && Preserves(inv, step)
    requires k < |xs| && forall s' :: inv(s') ==> step(s', xs[k]).0.Err?
    ensures Thread(inv, step, s, xs).0.Err?
    decreases |xs|
  {
    if k > 0 {
      assert xs[1..][k - 1] == xs[k];
      var one := step(s, xs[0]);
      if one.0.Ok? {
        ThreadAborts(inv, step, one.1, xs[1..], k - 1);
      }
    }
  }

  /** The value an optional result carries, if any. */
  function Present<B>(o: Option<B>): Option<B> {
    o
  }

  /** The stateless reading of a run: map with `f`, abort on the first error, keep the values present. */
  function Collect<A, B, E>(f: A -> Result<Option<B>, E>, xs: seq<A>): (r: Result<seq<B>, E>)
    ensures r.Ok? <==> MapAll(f, xs).Ok?
    ensures r.Err? ==> r.error == MapAll(f, xs).error
    ensures r.Ok? ==> |r.value| <= |xs| && forall b :: b in r.value ==> exists i :: 0 <= i < |xs| && f(xs[i]) == Ok(Some(b))
  {
    match MapAll(f, xs)
    case Err(e) => Err(e)
    case Ok(ys) =>
      assert forall i :: 0 <= i < |ys| ==> f(xs[i]) == Ok(ys[i]);
      Ok(FilterMap(Present, ys))
  }

  /** A successful collection keeps every value an element yields. */
  lemma CollectKeepsAll<A, B, E>(f: A -> Result<Option<B>, E>, xs: seq<A>, i: nat)
    requires Collect(f, xs).Ok? && i < |xs| && f(xs[i]).Ok? && f(xs[i]).value.Some?
    ensures f(xs[i]).value.value in Collect(f, xs).value
  {
    FilterMapKeepsAll(Present, MapAll(f, xs).value, i);
  }

  /** One element contributes its value if it has one, nothing if it has none, and its error if it fails. */
  lemma CollectSingle<A, B, E>(f: A -> Result<Option<B>, E>, x: A)
    ensures f(x).Err? ==> Collect(f, [x]) == Err(f(x).error)
    ensures f(x) == Ok(None) ==> Collect(f, [x]) == Ok([])
    ensures f(x).Ok? && f(x).value.Some? ==> Collect(f, [x]) == Ok([f(x).value.value])
  {
    if f(x).Ok? {
      var ys := MapAll(f, [x]).value;
      assert ys == [f(x).value] && ys[1..] == [];
      if f(x).value.Some? {
        var b := f(x).value.value;
        assert FilterMap(Present, ys) == [b] + FilterMap(Present, ys[1..]);
        assert [b] + FilterMap(Present, ys[1..]) == [b];
      }
    }
  }

  /** Collecting over `a + b` that succeeds is collecting over `a` followed by collecting over `b`. */
  lemma CollectConcat<A, B, E>(f: A -> Result<Option<B>, E>, a: seq<A>, b: seq<A>)
    requires Collect(f, a).Ok? && Collect(f, b).Ok?
    ensures Collect(f, a + b) == Ok(Collect(f, a).value + Collect(f, b).value)
  {
    MapAllConcat(f, a, b);
    FilterMapConcat(Present, MapAll(f, a).value, MapAll(f, b).value);
  }

  /**
   * When, from every state satisfying `agree`, a step returns what the
   * stateless `f` returns and keeps `agree`, the run is `Collect(f, xs)`
   * and ends in a state satisfying `agree`.
   */
  lemma {:induction false} ThreadIsStateless<S(!new), A(!new), B, E>(
    inv: S -> bool, step: (S, A) --> (Result<Option<B>, E>, S), agree: S -> bool, f: A -> Result<Option<B>, E>, s: S, xs: seq<A>)
    requires inv(s) && Preserves(inv, step) && agree(s)
    requires forall s', a :: inv(s') && agree(s') ==> step(s', a).0 == f(a) && agree(step(s', a).1)
    ensures Thread(inv, step, s, xs).0 == Collect(f, xs)
    ensures agree(Thread(inv, step, s, xs).1)
    decreases |xs|
  {
    if xs != [] {
      var one := step(s, xs[0]);
      var tail := xs[1..];
      assert MapAll(f, xs) == match f(xs[0])
        case Err(e) => Err(e)
        case Ok(y) => (match MapAll(f, tail) case Err(e) => Err(e) case Ok(ys) => Ok([y] + ys));
      if one.0.Ok? {
        ThreadIsStateless(inv, step, agree, f, one.1, tail);
        if MapAll(f, tail).Ok? {
          FilterMapConcat(Present, [one.0.value], MapAll(f, tail).value);
        }
      }
    }
  }
}

=== FILE: loader.dfy ===
/**
 * Element loading of `PluginService`: resolving a manifest entry to a file
 * inside the plugin's source directory (`_resolve_element_path`), loading one
 * element (`load_plugin_element`) and loading a batch
 * (`load_plugin_elements`), the latter two threading the directory memo table.
 */
module Loader {
  import opened Wrappers
  import opened Paths
  import opened Models
  import opened Manifests
  import opened Collections
  import opened PluginIndex
  import Lru

  /** The file a skill directory is read from. */
  const SkillFile: string := "SKILL.md"

  // ---------------------------------------------------------------------------
  // Resolving one entry
  // ---------------------------------------------------------------------------

  /** An entry names the requested element when the element is its stem or the entry itself. */
  predicate NamesElement(entry: string, requested: string) {
    requested == PathStem(entry) || requested == entry
  }

  /** The entry checked against the plugin's source directory (`marketplace_dir / source`). */
  function Guarded(marketplaceDir: Path, source: string, entry: string): Result<Path, GuardError> {
    ValidateSafePath(Join(marketplaceDir, source), entry)
  }

  /**
   * `_resolve_element_path`: the regular file an entry denotes when it names
   * the requested element and stays inside the plugin's source directory;
   * for skills a directory stands for its `SKILL.md`.
   */
  function ResolveElementPath(fs: FileSystem, marketplaceDir: Path, source: string, category: Category,
                              entry: string, requested: string): (r: Option<Path>)
    ensures r.Some? ==> NamesElement(entry, requested)
    ensures r.Some? ==> IsFile(fs, r.value) && Canonical(r.value)
    ensures r.Some? ==> Resolve(Join(marketplaceDir, source)) <= r.value
    ensures Guarded(marketplaceDir, source, entry).Err? ==> r.None?
    ensures r.Some? && category != Skills ==> Guarded(marketplaceDir, source, entry) == Ok(r.value)
    ensures r.Some? && category == Skills ==>
      var full := Guarded(marketplaceDir, source, entry).value;
      (IsDir(fs, full) && r.value == full + [SkillFile]) || (!IsDir(fs, full) && r.value == full)
    ensures (&& NamesElement(entry, requested)
             && Guarded(marketplaceDir, source, entry).Ok?
             && IsFile(fs, Guarded(marketplaceDir, source, entry).value))
      ==> r == Some(Guarded(marketplaceDir, source, entry).value)
    ensures (&& NamesElement(entry, requested)
             && category == Skills
             && Guarded(marketplaceDir, source, entry).Ok?
             && IsDir(fs, Guarded(marketplaceDir, source, entry).value))
      ==> (r.Some? <==> IsFile(fs, Guarded(marketplaceDir, source, entry).value + [SkillFile]))
  {
    if !NamesElement(entry, requested) then None
    else
      match Guarded(marketplaceDir, source, entry)
      case Err(_) => None
      case Ok(full) =>
        if category == Skills && IsDir(fs, full) then
          var skill := full + [SkillFile];
          if IsFile(fs, skill) then Some(skill) else None
        else if IsFile(fs, full) then Some(full)
        else None
  }

  /** The path traversal of the end-to-end test never resolves, whatever the file system holds. */
  lemma TraversalEntryNeverResolves(fs: FileSystem, marketplaceDir: Path, source: string, category: Category)
    requires |Resolve(Join(marketplaceDir, source))| >= 3
    ensures ResolveElementPath(fs, marketplaceDir, source, category, TraversalAttempt, TraversalAttempt).None?
  {
    TraversalRefused(Join(marketplaceDir, source));
  }

  // ---------------------------------------------------------------------------
  // Loading one element
  // ---------------------------------------------------------------------------

  /** The file an entry resolves to; entries that are not strings resolve to nothing. */
  function EntryTarget(fs: FileSystem, dir: Path, source: string, category: Category, requested: string, e: Entry): (r: Option<Path>)
    ensures r.Some? ==> e.PathEntry? && NamesElement(e.path, requested)
    ensures r.Some? ==> IsFile(fs, r.value) && Resolve(Join(dir, source)) <= r.value
  {
    match e
    case PathEntry(p) => ResolveElementPath(fs, dir, source, category, p, requested)
    case _ => None
  }

  /** `EntryTarget` as a function value over the entries. */
  function Targets(fs: FileSystem, dir: Path, source: string, category: Category, requested: string): Entry -> Option<Path> {
    e => EntryTarget(fs, dir, source, category, requested, e)
  }

  /** Reading a resolved file: its text as the element, or nothing when it cannot be opened or read. */
  function ReadElement(fs: FileSystem, category: Category, requested: string, path: Path): (r: Option<LoadedElement>)
    requires IsFile(fs, path)
    ensures r.Some? <==> fs[path].content.Text?
    ensures r.Some? ==> r.value == LoadedElement(CategoryName(category), requested, path, fs[path].content.text)
  {
    match fs[path].content
    case Text(t) => Some(LoadedElement(CategoryName(category), requested, path, t))
    case Unreadable => None
  }

  /**
   * The loop of `load_plugin_element`: the first entry that resolves is read
   * and returned; a read failure ends the search with nothing.
   */
  function LoadFromEntries(fs: FileSystem, dir: Path, source: string, category: Category, requested: string,
                           entries: seq<Entry>): (r: Option<LoadedElement>)
    ensures r.Some? ==> r.value.elementType == CategoryName(category) && r.value.name == requested
    ensures r.Some? ==> IsFile(fs, r.value.path) && fs[r.value.path].content == Text(r.value.content)
    ensures r.Some? ==> Resolve(Join(dir, source)) <= r.value.path
    ensures r.Some? ==> exists i :: 0 <= i < |entries| && EntryTarget(fs, dir, source, category, requested, entries[i]) == Some(r.value.path)
    ensures (forall i :: 0 <= i < |entries| ==> EntryTarget(fs, dir, source, category, requested, entries[i]).None?) ==> r.None?
  {
    var targets := Targets(fs, dir, source, category, requested);
    match FirstSome(targets, entries)
    case None => None
    case Some(path) =>
      assert exists i :: 0 <= i < |entries| && EntryTarget(fs, dir, source, category, requested, entries[i]) == Some(path) by {
        var i :| 0 <= i < |entries| && targets(entries[i]) == Some(path);
      }
      ReadElement(fs, category, requested, path)
  }

  /**
   * The loop reads exactly the first entry that resolves, in manifest order:
   * entries before it (including those that are not strings) are skipped,
   * and an unreadable file ends the search with nothing.
   */
  lemma LoadReadsFirstResolvingEntry(fs: FileSystem, dir: Path, source: string, category: Category,
                                     requested: string, entries: seq<Entry>, i: nat)
    requires i < |entries| && EntryTarget(fs, dir, source, category, requested, entries[i]).Some?
    requires forall j :: 0 <= j < i ==> EntryTarget(fs, dir, source, category, requested, entries[j]).None?
    ensures LoadFromEntries(fs, dir, source, category, requested, entries) ==
      ReadElement(fs, category, requested, EntryTarget(fs, dir, source, category, requested, entries[i]).value)
  {
    var targets := Targets(fs, dir, source, category, requested);
    assert forall j :: 0 <= j < i ==> targets(entries[j]).None?;
    FirstSomeIsFirst(targets, entries, i);
  }

  /** The load once the marketplace directory is known, or known to be missing. */
  function LoadWithDir(env: Env, category: Category, requested: string, pluginName: string, dir: Option<Path>)
    : (r: Result<Option<LoadedElement>, ServiceError>)
    ensures dir.None? ==> r == Ok(None)
    ensures dir.Some? ==> (r.Err? <==> IsFile(env.fs, env.root))
    ensures dir.Some? && FindPluginInMarketplace(env, pluginName) == Ok(None) ==> r == Ok(None)
    ensures (&& dir.Some?
             && FindPluginInMarketplace(env, pluginName).Ok?
             && FindPluginInMarketplace(env, pluginName).value.Some?
             && var def := FindPluginInMarketplace(env, pluginName).value.value;
             def.source.GetOr("") == "" || EntriesOf(def, category) == [])
      ==> r == Ok(None)
    ensures (&& dir.Some?
             && FindPluginInMarketplace(env, pluginName).Ok?
             && FindPluginInMarketplace(env, pluginName).value.Some?
             && var def := FindPluginInMarketplace(env, pluginName).value.value;
             def.source.GetOr("") != "" && EntriesOf(def, category) != [])
      ==> var def := FindPluginInMarketplace(env, pluginName).value.value;
        r == Ok(LoadFromEntries(env.fs, dir.value, def.source.value, category, requested, EntriesOf(def, category)))
    ensures r.Ok? && r.value.Some? ==>
      && FindPluginInMarketplace(env, pluginName).Ok?
      && FindPluginInMarketplace(env, pluginName).value.Some?
      && var def := FindPluginInMarketplace(env, pluginName).value.value;
      && def.source.Some? && def.source.value != ""
      && EntriesOf(def, category) != []
      && Resolve(Join(dir.value, def.source.value)) <= r.value.value.path
    ensures r.Ok? && r.value.Some? ==>
      && r.value.value.elementType == CategoryName(category)
      && r.value.value.name == requested
      && IsFile(env.fs, r.value.value.path)
      && env.fs[r.value.value.path].content == Text(r.value.value.content)
  {
    match dir
    case None => Ok(None)
    case Some(d) =>
      match FindPluginInMarketplace(env, pluginName)
      case Err(e) => Err(e)
      case Ok(None) => Ok(None)
      case Ok(Some(def)) =>
        var source := def.source.GetOr("");
        var entries := EntriesOf(def, category);
        if source == "" || entries == [] then Ok(None)
        else Ok(LoadFromEntries(env.fs, d, source, category, requested, entries))
  }

  /**
   * `load_plugin_element`: an unknown element type is refused before
   * anything else (the memo table untouched); otherwise the marketplace
   * directory comes from the memoised lookup and the element from a fresh
   * read of the manifest and the file.
   */
  function LoadPluginElement(cache: DirCache, env: Env, pluginName: string, elementType: string, elementName: string)
    : (out: (Result<Option<LoadedElement>, ServiceError>, DirCache))
    requires Lru.Valid(cache)
    ensures Lru.Valid(out.1)
    ensures ParseCategory(elementType).None? ==> out == (Err(InvalidElementType(elementType)), cache)
    ensures out.0 == Err(InvalidElementType(elementType)) ==> ValidateElementType(elementType).Err?
    ensures out.0.Ok? && out.0.value.Some? ==>
      && out.0.value.value.elementType == elementType
      && out.0.value.value.name == elementName
      && IsFile(env.fs, out.0.value.value.path)
      && env.fs[out.0.value.value.path].content == Text(out.0.value.value.content)
    ensures out.0.Ok? ==> Lru.Get(out.1, CacheKey(env.root, pluginName)).Some?
    ensures ParseCategory(elementType).Some? ==> out.1 == FindPluginMarketplaceDir(cache, env, pluginName).1
    ensures ParseCategory(elementType).Some? && FindPluginMarketplaceDir(cache, env, pluginName).0.Ok? ==>
      out.0 == LoadWithDir(env, ParseCategory(elementType).value, elementName, pluginName,
                           FindPluginMarketplaceDir(cache, env, pluginName).0.value)
  {
    match ParseCategory(elementType)
    case None => (Err(InvalidElementType(elementType)), cache)
    case Some(category) =>
      var located := FindPluginMarketplaceDir(cache, env, pluginName);
      match located.0
      case Err(e) => (Err(e), located.1)
      case Ok(dir) => (LoadWithDir(env, category, elementName, pluginName, dir), located.1)
  }

  /** The same load with the directory found by a fresh scan: the reference the memoised load must match. */
  function LoadPluginElementUncached(env: Env, pluginName: string, elementType: string, elementName: string)
    : (r: Result<Option<LoadedElement>, ServiceError>)
    ensures r.Err? <==> ParseCategory(elementType).None? || IsFile(env.fs, env.root)
    ensures env.root !in env.fs && ParseCategory(elementType).Some? ==> r == Ok(None)
    ensures r.Ok? && r.value.Some? ==> DescribePlugin(env, pluginName).Ok?
  {
    match ParseCategory(elementType)
    case None => Err(InvalidElementType(elementType))
    case Some(category) =>
      LocateAgreesWithDescribe(env, pluginName);
      match LocateUncached(env, pluginName)
      case Err(e) => Err(e)
      case Ok(dir) => LoadWithDir(env, category, elementName, pluginName, dir)
  }

  /**
   * An element that exists is loaded: when the plugin is found, its source is
   * set and entry `i` is the first to resolve, to a file holding text, the
   * load returns that file's text under the requested type and name.
   */
  lemma LoadFindsReadableElement(env: Env, pluginName: string, category: Category, requested: string,
                                 d: Path, def: PluginDef, i: nat, p: Path, text: string)
    requires LocateUncached(env, pluginName) == Ok(Some(d))
    requires FindPluginInMarketplace(env, pluginName) == Ok(Some(def))
    requires def.source.Some? && def.source.value != ""
    requires i < |EntriesOf(def, category)|
    requires EntryTarget(env.fs, d, def.source.value, category, requested, EntriesOf(def, category)[i]) == Some(p)
    requires forall j :: 0 <= j < i ==> EntryTarget(env.fs, d, def.source.value, category, requested, EntriesOf(def, category)[j]).None?
    requires env.fs[p].content == Text(text)
    ensures LoadPluginElementUncached(env, pluginName, CategoryName(category), requested) ==
      Ok(Some(LoadedElement(CategoryName(category), requested, p, text)))
  {
    CategoryRoundTrip(category);
    LoadReadsFirstResolvingEntry(env.fs, d, def.source.value, category, requested, EntriesOf(def, category), i);
  }

  /** Against an unchanged file system the memo table does not change what a load returns. */
  lemma LoadIsCacheTransparent(cache: DirCache, env: Env, pluginName: string, elementType: string, elementName: string)
    requires Lru.Valid(cache) && Consistent(cache, env)
    ensures LoadPluginElement(cache, env, pluginName, elementType, elementName).0 ==
      LoadPluginElementUncached(env, pluginName, elementType, elementName)
    ensures Consistent(LoadPluginElement(cache, env, pluginName, elementType, elementName).1, env)
  {
    if ParseCategory(elementType).Some? {
      CachedLookupMatchesScan(cache, env, pluginName);
    }
  }

  // ---------------------------------------------------------------------------
  // Loading a batch
  // ---------------------------------------------------------------------------

  /** One request of a batch: its `type`, `element_type` and `name` keys, each possibly absent. */
  datatype ElementRequest = ElementRequest(typeKey: Option<string>, elementTypeKey: Option<string>, name: Option<string>)

  /** `type or element_type`, with an absent or empty value read as `""`. */
  function RequestType(q: ElementRequest): (r: string)
    ensures r != "" ==> Some(r) == q.typeKey || (q.typeKey.GetOr("") == "" && Some(r) == q.elementTypeKey)
    ensures r == "" <==> q.typeKey.GetOr("") == "" && q.elementTypeKey.GetOr("") == ""
  {
    if q.typeKey.GetOr("") != "" then q.typeKey.value else q.elementTypeKey.GetOr("")
  }

  /** A request without a type or without a name is skipped. */
  predicate Skipped(q: ElementRequest) {
    RequestType(q) == "" || q.name.GetOr("") == ""
  }

  /** `e` holds the text of the regular file at its path. */
  predicate ReadFrom(fs: FileSystem, e: LoadedElement) {
    IsFile(fs, e.path) && fs[e.path].content == Text(e.content)
  }

  /** `e` answers request `q`: the request is not skipped and asked for `e`'s type and name. */
  predicate Requested(q: ElementRequest, e: LoadedElement) {
    !Skipped(q) && RequestType(q) == e.elementType && q.name == Some(e.name)
  }

  /** The memo table's invariant, threaded through a batch. */
  predicate TableValid(c: DirCache) {
    Lru.Valid(c)
  }

  /** The memo table agrees with the file system. */
  ghost function ConsistentWith(env: Env): DirCache -> bool {
    c => Consistent(c, env)
  }

  /** One request of a batch against the memo table: a skipped request yields nothing and leaves the table alone. */
  function LoadStep(env: Env, pluginName: string): (DirCache, ElementRequest) --> (Result<Option<LoadedElement>, ServiceError>, DirCache) {
    (c: DirCache, q: ElementRequest) requires Lru.Valid(c) =>
      if Skipped(q) then (Ok(None), c) else LoadPluginElement(c, env, pluginName, RequestType(q), q.name.value)
  }

  /** `e` answers request `q` with the text of the file at its path. */
  function Answers(env: Env): (ElementRequest, LoadedElement) -> bool {
    (q, e) => Requested(q, e) && ReadFrom(env.fs, e)
  }

  /** A step keeps the table valid and does nothing for a skipped request. */
  lemma LoadStepKeepsTable(env: Env, pluginName: string)
    ensures Preserves(TableValid, LoadStep(env, pluginName))
    ensures forall c, q :: TableValid(c) && Skipped(q) ==> LoadStep(env, pluginName)(c, q) == (Ok(None), c)
  {
  }

  /** A step answers its request with a file's text. */
  lemma LoadStepAnswers(env: Env, pluginName: string)
    ensures Preserves(TableValid, LoadStep(env, pluginName))
    ensures YieldsOnly(TableValid, LoadStep(env, pluginName), Answers(env))
  {
    LoadStepKeepsTable(env, pluginName);
    var step := LoadStep(env, pluginName);
    forall c, q | TableValid(c) && step(c, q).0.Ok? && step(c, q).0.value.Some?
      ensures Answers(env)(q, step(c, q).0.value.value)
    {
      assert !Skipped(q);
      assert step(c, q) == LoadPluginElement(c, env, pluginName, RequestType(q), q.name.value);
    }
  }

  /**
   * `load_plugin_elements`: the elements that load, in request order;
   * skipped requests and elements not found contribute nothing, and the
   * first error raised aborts the batch. Against an unchanged file system
   * the memo table is invisible: the batch is the uncached map-and-filter
   * and the table stays consistent.
   */
  function LoadPluginElements(cache: DirCache, env: Env, pluginName: string, requests: seq<ElementRequest>)
    : (out: (Result<seq<LoadedElement>, ServiceError>, DirCache))
    requires Lru.Valid(cache)
    ensures Lru.Valid(out.1)
    ensures out.0.Ok? ==> |out.0.value| <= |requests|
    ensures Consistent(cache, env) ==>
      out.0 == LoadPluginElementsUncached(env, pluginName, requests) && Consistent(out.1, env)
  {
    LoadStepKeepsTable(env, pluginName);
    var step := LoadStep(env, pluginName);
    var out := Thread(TableValid, step, cache, requests);
    assert Consistent(cache, env) ==>
      out.0 == LoadPluginElementsUncached(env, pluginName, requests) && Consistent(out.1, env)
    by {
      if Consistent(cache, env) {
        var agree, f := ConsistentWith(env), LoadRequest(env, pluginName);
        forall c, q | TableValid(c) && agree(c) ensures step(c, q).0 == f(q) && agree(step(c, q).1) {
          if !Skipped(q) {
            LoadIsCacheTransparent(c, env, pluginName, RequestType(q), q.name.value);
          }
        }
        ThreadIsStateless(TableValid, step, agree, f, cache, requests);
      }
    }
    out
  }

  /**
   * Every element of a batch answers one of its requests and holds the text
   * of the file at its path.
   */
  lemma BatchElementsAreRequested(cache: DirCache, env: Env, pluginName: string, requests: seq<ElementRequest>)
    requires Lru.Valid(cache)
    ensures var out := LoadPluginElements(cache, env, pluginName, requests);
      out.0.Ok? ==> forall e :: e in out.0.value ==> ReadFrom(env.fs, e) && exists q :: q in requests && Requested(q, e)
  {
    LoadStepAnswers(env, pluginName);
    ThreadYields(TableValid, LoadStep(env, pluginName), Answers(env), cache, requests);
    var out := LoadPluginElements(cache, env, pluginName, requests);
    if out.0.Ok? {
      forall e | e in out.0.value ensures ReadFrom(env.fs, e) && exists q :: q in requests && Requested(q, e) {
        var q :| q in requests && Answers(env)(q, e);
      }
    }
  }

  /** A batch of skipped requests returns nothing and leaves the table untouched. */
  lemma SkippedBatchIsIdle(cache: DirCache, env: Env, pluginName: string, requests: seq<ElementRequest>)
    requires Lru.Valid(cache)
    requires forall i :: 0 <= i < |requests| ==> Skipped(requests[i])
    ensures LoadPluginElements(cache, env, pluginName, requests) == (Ok([]), cache)
  {
    LoadStepKeepsTable(env, pluginName);
    ThreadIdle(TableValid, LoadStep(env, pluginName), Skipped, cache, requests);
  }

  /** One request read without the memo table: skipped requests yield nothing. */
  function LoadRequest(env: Env, pluginName: string): ElementRequest -> Result<Option<LoadedElement>, ServiceError> {
    q => if Skipped(q) then Ok(None) else LoadPluginElementUncached(env, pluginName, RequestType(q), q.name.value)
  }

  /** The batch as a map over requests followed by dropping what was not found. */
  function LoadPluginElementsUncached(env: Env, pluginName: string, requests: seq<ElementRequest>)
    : (r: Result<seq<LoadedElement>, ServiceError>)
    ensures r.Ok? <==> forall i :: 0 <= i < |requests| ==> LoadRequest(env, pluginName)(requests[i]).Ok?
    ensures r.Err? ==> exists i ::
      && 0 <= i < |requests|
      && LoadRequest(env, pluginName)(requests[i]) == Err(r.error)
      && forall j :: 0 <= j < i ==> LoadRequest(env, pluginName)(requests[j]).Ok?
    ensures r.Ok? ==> forall e :: e in r.value ==>
      exists i :: 0 <= i < |requests| && LoadRequest(env, pluginName)(requests[i]) == Ok(Some(e))
    ensures r.Ok? ==> forall i ::
      0 <= i < |requests| && LoadRequest(env, pluginName)(requests[i]).Ok? && LoadRequest(env, pluginName)(requests[i]).value.Some?
      ==> LoadRequest(env, pluginName)(requests[i]).value.value in r.value
  {
    var f := LoadRequest(env, pluginName);
    var r := Collect(f, requests);
    assert r.Ok? ==> forall i :: 0 <= i < |requests| && f(requests[i]).Ok? && f(requests[i]).value.Some? ==> f(requests[i]).value.value in r.value
    by {
      if r.Ok? {
        forall i | 0 <= i < |requests| && f(requests[i]).Ok? && f(requests[i]).value.Some? ensures f(requests[i]).value.value in r.value {
          CollectKeepsAll(f, requests, i);
        }
      }
    }
    r
  }

  /**
   * What one request contributes to a batch: nothing when it is skipped or
   * its element is not found, the loaded element when it loads, and its
   * error when the load raises.
   */
  lemma BatchSingle(env: Env, pluginName: string, q: ElementRequest)
    ensures Skipped(q) ==> LoadPluginElementsUncached(env, pluginName, [q]) == Ok([])
    ensures !Skipped(q) ==>
      var one := LoadPluginElementUncached(env, pluginName, RequestType(q), q.name.value);
      && (one.Err? ==> LoadPluginElementsUncached(env, pluginName, [q]) == Err(one.error))
      && (one == Ok(None) ==> LoadPluginElementsUncached(env, pluginName, [q]) == Ok([]))
      && (one.Ok? && one.value.Some? ==> LoadPluginElementsUncached(env, pluginName, [q]) == Ok([one.value.value]))
  {
    CollectSingle(LoadRequest(env, pluginName), q);
  }

  /** A batch over `a + b` that succeeds returns the elements of `a` followed by those of `b`. */
  lemma BatchConcatenates(env: Env, pluginName: string, a: seq<ElementRequest>, b: seq<ElementRequest>)
    requires LoadPluginElementsUncached(env, pluginName, a).Ok? && LoadPluginElementsUncached(env, pluginName, b).Ok?
    ensures LoadPluginElementsUncached(env, pluginName, a + b) ==
      Ok(LoadPluginElementsUncached(env, pluginName, a).value + LoadPluginElementsUncached(env, pluginName, b).value)
  {
    CollectConcat(LoadRequest(env, pluginName), a, b);
  }

  /** Any well-formed request with an unknown element type makes the whole batch fail. */
  lemma InvalidTypeFailsBatch(cache: DirCache, env: Env, pluginName: string, requests: seq<ElementRequest>, k: nat)
    requires Lru.Valid(cache)
    requires k < |requests| && !Skipped(requests[k]) && ParseCategory(RequestType(requests[k])).None?
    ensures LoadPluginElements(cache, env, pluginName, requests).0.Err?
  {
    LoadStepKeepsTable(env, pluginName);
    ThreadAborts(TableValid, LoadStep(env, pluginName), cache, requests, k);
  }
}

=== FILE: lru.dfy ===
/**
 * A bounded least-recently-used memo table, the behaviour of
 * `functools.lru_cache(maxsize=128)` seen by a single caller.
 */
module Lru {
  import opened Wrappers

  /** `maxsize` of the decorator. */
  const Capacity: nat := 128

  /** Cached pairs, from least to most recently used. */
  datatype Cache<K, V> = Cache(entries: seq<(K, V)>)

  predicate DistinctKeys<K(==), V(==)>(es: seq<(K, V)>) {
    forall i, j :: 0 <= i < j < |es| ==> es[i].0 != es[j].0
  }

  /** The table invariant: one pair per key and never more than `Capacity` pairs. */
  predicate Valid<K(==), V(==)>(c: Cache<K, V>) {
    DistinctKeys(c.entries) && |c.entries| <= Capacity
  }

  /** The table as the decorator creates it. */
  function Empty<K(==), V(==)>(): (c: Cache<K, V>)
    ensures Valid(c) && c.entries == []
  {
    Cache([])
  }

  /** Position of the pair for `k`. */
  function IndexOf<K(==), V(==)>(es: seq<(K, V)>, k: K): (r: Option<nat>)
    ensures r.Some? ==> r.value < |es| && es[r.value].0 == k
    ensures r.None? ==> forall i :: 0 <= i < |es| ==> es[i].0 != k
    decreases |es|
  {
    if es == [] then None
    else if es[|es| - 1].0 == k then Some(|es| - 1)
    else IndexOf(es[..|es| - 1], k)
  }

  /** The value cached for `k`. */
  function Get<K(==), V(==)>(c: Cache<K, V>, k: K): Option<V> {
    match IndexOf(c.entries, k)
    case Some(i) => Some(c.entries[i].1)
    case None => None
  }

  /** In a valid table a lookup finds exactly the stored pair. */
  lemma GetIsMembership<K, V>(c: Cache<K, V>, k: K, v: V)
    requires DistinctKeys(c.entries)
    ensures Get(c, k) == Some(v) <==> (k, v) in c.entries
  {
    if (k, v) in c.entries {
      var j :| 0 <= j < |c.entries| && c.entries[j] == (k, v);
      var i := IndexOf(c.entries, k).value;
      assert i == j;
    }
  }

  /** `es` without its `i`-th pair. */
  function RemoveAt<K(==), V(==)>(es: seq<(K, V)>, i: nat): (r: seq<(K, V)>)
    requires i < |es|
    ensures |r| == |es| - 1
    ensures forall a :: 0 <= a < i ==> r[a] == es[a]
    ensures forall a :: i <= a < |r| ==> r[a] == es[a + 1]
  {
    es[..i] + es[i + 1..]
  }

  lemma RemoveAtDistinct<K, V>(es: seq<(K, V)>, i: nat)
    requires i < |es| && DistinctKeys(es)
    ensures DistinctKeys(RemoveAt(es, i))
    ensures forall a :: 0 <= a < |RemoveAt(es, i)| ==> RemoveAt(es, i)[a].0 != es[i].0
  {
    var r := RemoveAt(es, i);
    forall a, b | 0 <= a < b < |r| ensures r[a].0 != r[b].0 {
      var a' := if a < i then a else a + 1;
      var b' := if b < i then b else b + 1;
      assert r[a] == es[a'] && r[b] == es[b'] && a' < b';
    }
    forall a | 0 <= a < |r| ensures r[a].0 != es[i].0 {
      var a' := if a < i then a else a + 1;
      assert r[a] == es[a'] && a' != i;
    }
  }

  /** Pairs of `es` other than the `i`-th survive its removal. */
  lemma RemoveAtKeeps<K, V>(es: seq<(K, V)>, i: nat, p: (K, V))
    requires i < |es| && p in es && p != es[i]
    ensures p in RemoveAt(es, i)
  {
    var j :| 0 <= j < |es| && es[j] == p;
    assert j != i;
    var r := RemoveAt(es, i);
    if j < i {
      assert r[j] == p;
    } else {
      assert r[j - 1] == p;
    }
  }

  lemma AppendDistinct<K, V>(es: seq<(K, V)>, p: (K, V))
    requires DistinctKeys(es)
    requires forall a :: 0 <= a < |es| ==> es[a].0 != p.0
    ensures DistinctKeys(es + [p])
  {
  }

  /** Moving the `i`-th pair to the most recent end keeps the table valid and every lookup's answer. */
  lemma MoveToEndKeepsLookups<K, V>(c: Cache<K, V>, i: nat)
    requires Valid(c) && i < |c.entries|
    ensures Valid(Cache(RemoveAt(c.entries, i) + [c.entries[i]]))
    ensures forall k', v' :: Get(Cache(RemoveAt(c.entries, i) + [c.entries[i]]), k') == Some(v') <==> Get(c, k') == Some(v')
  {
    var es := c.entries;
    var rest := RemoveAt(es, i);
    RemoveAtDistinct(es, i);
    AppendDistinct(rest, es[i]);
    var r := Cache(rest + [es[i]]);
    forall k', v' ensures Get(r, k') == Some(v') <==> Get(c, k') == Some(v') {
      GetIsMembership(c, k', v');
      GetIsMembership(r, k', v');
      if (k', v') in es && (k', v') != es[i] {
        RemoveAtKeeps(es, i, (k', v'));
      }
    }
  }

  /**
   * A cache hit: the pair for `k` becomes the most recently used one, the
   * other pairs keep their order from least to most recently used, and every
   * lookup still finds what it found before.
   */
  function Touch<K(==,!new), V(==,!new)>(c: Cache<K, V>, k: K): (r: Cache<K, V>)
    requires Valid(c)
    ensures Valid(r) && |r.entries| == |c.entries|
    ensures forall k', v' :: Get(r, k') == Some(v') <==> Get(c, k') == Some(v')
    ensures Get(c, k).Some? ==> r.entries[|r.entries| - 1] == (k, Get(c, k).value)
    ensures Get(c, k).Some? ==> r.entries[..|r.entries| - 1] == RemoveAt(c.entries, IndexOf(c.entries, k).value)
    ensures Get(c, k).None? ==> r == c
  {
    match IndexOf(c.entries, k)
    case None => c
    case Some(i) =>
      MoveToEndKeepsLookups(c, i);
      Cache(RemoveAt(c.entries, i) + [c.entries[i]])
  }

  /** The pairs kept when a new one arrives: all of them, or all but the oldest in a full table. */
  function Survivors<K(==), V(==)>(es: seq<(K, V)>): (r: seq<(K, V)>)
    ensures DistinctKeys(es) ==> DistinctKeys(r)
    ensures forall a :: 0 <= a < |r| ==> r[a] in es
    ensures |es| < Capacity ==> r == es
    ensures |es| >= Capacity ==> |r| == |es| - 1 && forall a :: 0 <= a < |r| ==> r[a] == es[a + 1]
  {
    if |es| >= Capacity then es[1..] else es
  }

  /** Appending a fresh key after `Survivors` keeps the table valid and loses only the evicted pair. */
  lemma InsertFreshSpec<K, V>(c: Cache<K, V>, k: K, v: V)
    requires Valid(c) && IndexOf(c.entries, k).None?
    ensures Valid(Cache(Survivors(c.entries) + [(k, v)]))
    ensures Get(Cache(Survivors(c.entries) + [(k, v)]), k) == Some(v)
    ensures forall k', v' :: k' != k && Get(Cache(Survivors(c.entries) + [(k, v)]), k') == Some(v') ==> Get(c, k') == Some(v')
    ensures forall k', v' :: k' != k && (|c.entries| < Capacity || k' != c.entries[0].0) && Get(c, k') == Some(v') ==>
      Get(Cache(Survivors(c.entries) + [(k, v)]), k') == Some(v')
    ensures |c.entries| == Capacity ==> Get(Cache(Survivors(c.entries) + [(k, v)]), c.entries[0].0) == None
  {
    var es := c.entries;
    var kept := Survivors(es);
    AppendDistinct(kept, (k, v));
    var r := Cache(kept + [(k, v)]);
    GetIsMembership(r, k, v);
    forall k', v' | k' != k ensures Get(r, k') == Some(v') ==> Get(c, k') == Some(v') {
      GetIsMembership(c, k', v');
      GetIsMembership(r, k', v');
    }
    forall k', v' | k' != k && (|es| < Capacity || k' != es[0].0)
      ensures Get(c, k') == Some(v') ==> Get(r, k') == Some(v')
    {
      GetIsMembership(c, k', v');
      GetIsMembership(r, k', v');
      if (k', v') in es && |es| >= Capacity {
        var j :| 0 <= j < |es| && es[j] == (k', v');
        assert j != 0;
        assert kept[j - 1] == (k', v');
      }
    }
    if |es| == Capacity {
      assert forall a :: 0 <= a < |r.entries| ==> r.entries[a].0 != es[0].0;
    }
  }

  /**
   * A cache miss that computed `v`: the pair becomes the most recently used
   * one, a full table first evicts its least recently used pair, and a key
   * that is already present (filled meanwhile) leaves the table unchanged.
   */
  function Insert<K(==,!new), V(==,!new)>(c: Cache<K, V>, k: K, v: V): (r: Cache<K, V>)
    requires Valid(c)
    ensures Valid(r)
    ensures Get(c, k).Some? ==> r == c
    ensures Get(c, k).None? ==> Get(r, k) == Some(v) && r.entries[|r.entries| - 1] == (k, v)
    ensures forall k', v' :: k' != k && Get(r, k') == Some(v') ==> Get(c, k') == Some(v')
    ensures Get(c, k).None? && |c.entries| < Capacity ==>
      forall k', v' :: k' != k && Get(c, k') == Some(v') ==> Get(r, k') == Some(v')
    ensures Get(c, k).None? && |c.entries| < Capacity ==> r.entries == c.entries + [(k, v)]
    ensures Get(c, k).None? && |c.entries| >= Capacity ==> r.entries == c.entries[1..] + [(k, v)]
    ensures Get(c, k).None? && |c.entries| == Capacity ==>
      Get(r, c.entries[0].0) == None &&
      forall k', v' :: k' != k && k' != c.entries[0].0 && Get(c, k') == Some(v') ==> Get(r, k') == Some(v')
  {
    if IndexOf(c.entries, k).Some? then c
    else
      InsertFreshSpec(c, k, v);
      Cache(Survivors(c.entries) + [(k, v)])
  }
}

=== FILE: manifests.dfy ===
/**
 * The on-disk world the plugin service reads: an abstract file system, the
 * shape of a parsed `marketplace.json`, and the marketplace scan that the
 * listing, describe and directory-lookup loops of `PluginService` share.
 */
module Manifests {
  import opened Wrappers
  import opened Paths
  import opened Models

  // ---------------------------------------------------------------------------
  // File system
  // ---------------------------------------------------------------------------

  /** What opening and reading a regular file yields: its text, or an `OSError`. */
  datatype Content = Unreadable | Text(text: string)

  /** A directory lists its entries in `iterdir()` order. */
  datatype Node = Dir(children: seq<string>) | File(content: Content)

  /** A snapshot of the file system, keyed by resolved path. */
  type FileSystem = map<Path, Node>

  predicate IsDir(fs: FileSystem, p: Path) {
    p in fs && fs[p].Dir?
  }

  predicate IsFile(fs: FileSystem, p: Path) {
    p in fs && fs[p].File?
  }

  // ---------------------------------------------------------------------------
  // Manifest shape
  // ---------------------------------------------------------------------------

  /** An open JSON object such as `owner` or `metadata`; its values are abstracted to strings. */
  type Fields = map<string, string>

  /** An entry of a plugin's `skills`, `agents` or `commands` array. */
  datatype Entry = PathEntry(path: string) | DictEntry(name: Option<string>) | OtherEntry

  /** A plugin object of a manifest; absent keys are `None` or empty arrays. */
  datatype PluginDef = PluginDef(
    name: Option<string>,
    description: Option<string>,
    source: Option<string>,
    agents: seq<Entry>,
    commands: seq<Entry>,
    skills: seq<Entry>,
    metadata: Option<Fields>)

  /** The entries a plugin declares for a category (`plugin.get(category, [])`). */
  function EntriesOf(p: PluginDef, c: Category): seq<Entry> {
    match c
    case Skills => p.skills
    case Agents => p.agents
    case Commands => p.commands
  }

  /** What the JSON decoder makes of a manifest's text. */
  datatype Manifest = Unparsable | Parsed(owner: Option<Fields>, metadata: Option<Fields>, plugins: seq<PluginDef>)

  /** A marketplace whose manifest was read and parsed. */
  datatype Marketplace = Marketplace(dir: Path, owner: Option<Fields>, metadata: Option<Fields>, plugins: seq<PluginDef>)

  /**
   * Everything a service call observes: the file system, the configured
   * marketplaces directory, and the JSON decoder applied to manifest text.
   */
  datatype Env = Env(fs: FileSystem, root: Path, parse: string -> Manifest)

  const ManifestDir: string := ".claude-plugin"
  const ManifestFile: string := "marketplace.json"

  /** `<marketplace>/.claude-plugin/marketplace.json`. */
  function ManifestPath(dir: Path): Path {
    dir + [ManifestDir, ManifestFile]
  }

  // ---------------------------------------------------------------------------
  // Scanning
  // ---------------------------------------------------------------------------

  /**
   * One marketplace of the scan: skipped (`None`) when it is not a directory,
   * has no manifest, or the manifest cannot be opened, read or parsed.
   */
  function ReadMarketplace(env: Env, dir: Path): (r: Option<Marketplace>)
    ensures r.Some? <==>
      && IsDir(env.fs, dir)
      && IsFile(env.fs, ManifestPath(dir))
      && env.fs[ManifestPath(dir)].content.Text?
      && env.parse(env.fs[ManifestPath(dir)].content.text).Parsed?
    ensures r.Some? ==> r.value.dir == dir && r.value.plugins == env.parse(env.fs[ManifestPath(dir)].content.text).plugins
    ensures r.Some? ==>
      && r.value.owner == env.parse(env.fs[ManifestPath(dir)].content.text).owner
      && r.value.metadata == env.parse(env.fs[ManifestPath(dir)].content.text).metadata
  {
    var path := ManifestPath(dir);
    if !IsDir(env.fs, dir) || path !in env.fs then None
    else
      match env.fs[path]
      case Dir(_) => None
      case File(Unreadable) => None
      case File(Text(t)) =>
        match env.parse(t)
        case Unparsable => None
        case Parsed(owner, metadata, plugins) => Some(Marketplace(dir, owner, metadata, plugins))
  }

  /** The paths `iterdir()` yields for a directory's entries, in order. */
  function ChildPaths(dir: Path, names: seq<string>): (r: seq<Path>)
    ensures |r| == |names|
    ensures forall i :: 0 <= i < |r| ==> r[i] == dir + [names[i]]
    decreases |names|
  {
    if names == [] then [] else [dir + [names[0]]] + ChildPaths(dir, names[1..])
  }

  /** The marketplaces among `dirs` that survive `ReadMarketplace`, in order. */
  function ScanDirs(env: Env, dirs: seq<Path>): (r: seq<Marketplace>)
    ensures |r| <= |dirs|
    ensures forall i :: 0 <= i < |r| ==> r[i].dir in dirs && ReadMarketplace(env, r[i].dir) == Some(r[i])
    ensures forall d :: d in dirs && ReadMarketplace(env, d).Some? ==> ReadMarketplace(env, d).value in r
    decreases |dirs|
  {
    if dirs == [] then []
    else
      var rest := ScanDirs(env, dirs[1..]);
      match ReadMarketplace(env, dirs[0])
      case None => rest
      case Some(m) => [m] + rest
  }

  /** Scanning keeps the order of the directories: it distributes over concatenation. */
  lemma {:induction false} ScanDirsConcat(env: Env, a: seq<Path>, b: seq<Path>)
    ensures ScanDirs(env, a + b) == ScanDirs(env, a) + ScanDirs(env, b)
    decreases |a|
  {
    if a == [] {
      assert a + b == b;
    } else {
      assert (a + b)[0] == a[0];
      assert (a + b)[1..] == a[1..] + b;
      ScanDirsConcat(env, a[1..], b);
    }
  }

  /**
   * The marketplaces under the root, in `iterdir()` order. A missing root is
   * an empty scan; a root that is a file makes `iterdir()` raise.
   */
  function Scan(env: Env): (r: Result<seq<Marketplace>, ServiceError>)
    ensures env.root !in env.fs ==> r == Ok([])
    ensures r.Err? <==> IsFile(env.fs, env.root)
    ensures r.Err? ==> r.error == NotADirectory(env.root)
    ensures r.Ok? && r.value != [] ==> IsDir(env.fs, env.root)
    ensures r.Ok? && IsDir(env.fs, env.root) ==> forall i :: 0 <= i < |r.value| ==>
      && r.value[i].dir in ChildPaths(env.root, env.fs[env.root].children)
      && ReadMarketplace(env, r.value[i].dir) == Some(r.value[i])
    ensures IsDir(env.fs, env.root) ==> r == Ok(ScanDirs(env, ChildPaths(env.root, env.fs[env.root].children)))
    ensures IsDir(env.fs, env.root) ==> forall d ::
      d in ChildPaths(env.root, env.fs[env.root].children) && ReadMarketplace(env, d).Some? ==> ReadMarketplace(env, d).value in r.value
  {
    if env.root !in env.fs then Ok([])
    else
      match env.fs[env.root]
      case File(_) => Err(NotADirectory(env.root))
      case Dir(children) =>
        assert env.fs[env.root].children == children;
        Ok(ScanDirs(env, ChildPaths(env.root, children)))
  }

  /** Every plugin of every scanned marketplace, in scan order, duplicates kept. */
  function AllPlugins(ms: seq<Marketplace>): (r: seq<PluginDef>)
    ensures forall k, j :: 0 <= k < |ms| && 0 <= j < |ms[k].plugins| ==> ms[k].plugins[j] in r
    decreases |ms|
  {
    if ms == [] then [] else ms[0].plugins + AllPlugins(ms[1..])
  }

  lemma {:induction false} AllPluginsConcat(a: seq<Marketplace>, b: seq<Marketplace>)
    ensures AllPlugins(a + b) == AllPlugins(a) + AllPlugins(b)
    decreases |a|
  {
    if a == [] {
      assert a + b == b;
    } else {
      assert (a + b)[0] == a[0];
      assert (a + b)[1..] == a[1..] + b;
      AllPluginsConcat(a[1..], b);
    }
  }
}

=== FILE: models.dfy ===
/**
 * The records and field validators of `models.py`: plugin names, element
 * categories and element names, the listing summary `PluginInfo`, the
 * `LoadedElement` a load returns, and the errors the service raises.
 */
module Models {
  import opened Wrappers
  import opened Paths

  /** Longest plugin or element name the validators accept. */
  const MaxNameLength: nat := 256

  // ---------------------------------------------------------------------------
  // Element categories
  // ---------------------------------------------------------------------------

  /** The three element categories a plugin can declare. */
  datatype Category = Skills | Agents | Commands

  /** The manifest key (and request spelling) of a category. */
  function CategoryName(c: Category): string {
    match c
    case Skills => "skills"
    case Agents => "agents"
    case Commands => "commands"
  }

  /** The category a request spelling denotes, if any. */
  function ParseCategory(s: string): (r: Option<Category>)
    ensures r.Some? ==> CategoryName(r.value) == s
    ensures r.None? <==> s !in {"skills", "agents", "commands"}
  {
    if s == "skills" then Some(Skills)
    else if s == "agents" then Some(Agents)
    else if s == "commands" then Some(Commands)
    else None
  }

  /** Spelling a category and reading it back gives the same category. */
  lemma CategoryRoundTrip(c: Category)
    ensures ParseCategory(CategoryName(c)) == Some(c)
  {
  }

  // ---------------------------------------------------------------------------
  // Validators
  // ---------------------------------------------------------------------------

  /** Why a plugin name was refused, in the order the checks run. */
  datatype NameError = EmptyName | NameTooLong | InvalidCharacter

  /** `str.isalnum` restricted to ASCII letters and digits. */
  predicate IsAlnum(c: char) {
    ('a' <= c <= 'z') || ('A' <= c <= 'Z') || ('0' <= c <= '9')
  }

  /** Characters a plugin name may contain. */
  predicate IsPluginNameChar(c: char) {
    IsAlnum(c) || c == '-' || c == '_'
  }

  /** `PluginInfo.validate_name`: non-empty, at most 256 characters, alphanumerics, `-` and `_`. */
  function ValidatePluginName(v: string): (r: Result<string, NameError>)
    ensures r.Ok? <==> v != [] && |v| <= MaxNameLength && forall i :: 0 <= i < |v| ==> IsPluginNameChar(v[i])
    ensures r.Ok? ==> r.value == v
    ensures r == Err(EmptyName) <==> v == []
    ensures r == Err(NameTooLong) <==> v != [] && |v| > MaxNameLength
  {
    if v == [] then Err(EmptyName)
    else if |v| > MaxNameLength then Err(NameTooLong)
    else if forall i :: 0 <= i < |v| ==> IsPluginNameChar(v[i]) then Ok(v)
    else Err(InvalidCharacter)
  }

  /** The length check runs before the character check: an over-long name reports its length. */
  lemma LengthReportedBeforeCharacters(v: string)
    requires |v| > MaxNameLength
    requires exists i :: 0 <= i < |v| && !IsPluginNameChar(v[i])
    ensures ValidatePluginName(v) == Err(NameTooLong)
  {
  }

  /** Accepting returns the name unchanged, so validating twice is validating once. */
  lemma PluginNameValidationIdempotent(v: string)
    requires ValidatePluginName(v).Ok?
    ensures ValidatePluginName(ValidatePluginName(v).value) == ValidatePluginName(v)
  {
  }

  /** Why an element request field was refused. */
  datatype ElementFieldError = InvalidType(given: string) | EmptyElementName | ElementNameTooLong

  /** `PluginElement.validate_element_type`: one of skills, agents, commands. */
  function ValidateElementType(v: string): (r: Result<string, ElementFieldError>)
    ensures r.Ok? <==> v in {"skills", "agents", "commands"}
    ensures r.Ok? ==> r.value == v && ParseCategory(v).Some?
    ensures r.Err? ==> r.error == InvalidType(v)
  {
    if ParseCategory(v).Some? then Ok(v) else Err(InvalidType(v))
  }

  /** `PluginElement.validate_element_name`: non-empty and at most 256 characters, any characters. */
  function ValidateElementName(v: string): (r: Result<string, ElementFieldError>)
    ensures r.Ok? <==> v != [] && |v| <= MaxNameLength
    ensures r.Ok? ==> r.value == v
    ensures r == Err(EmptyElementName) <==> v == []
    ensures r == Err(ElementNameTooLong) <==> |v| > MaxNameLength
  {
    if v == [] then Err(EmptyElementName)
    else if |v| > MaxNameLength then Err(ElementNameTooLong)
    else Ok(v)
  }

  /** Element names are looser than plugin names: every valid plugin name is a valid element name. */
  lemma PluginNamesAreElementNames(v: string)
    requires ValidatePluginName(v).Ok?
    ensures ValidateElementName(v) == Ok(v)
  {
  }

  /** Both element validators are idempotent. */
  lemma ElementValidationIdempotent(t: string, n: string)
    ensures ValidateElementType(t).Ok? ==> ValidateElementType(ValidateElementType(t).value) == ValidateElementType(t)
    ensures ValidateElementName(n).Ok? ==> ValidateElementName(ValidateElementName(n).value) == ValidateElementName(n)
  {
  }

  // ---------------------------------------------------------------------------
  // Records
  // ---------------------------------------------------------------------------

  /** A listing row: a plugin's name, description and the names of its elements. */
  datatype PluginInfo = PluginInfo(
    name: string,
    description: string,
    agents: seq<string>,
    commands: seq<string>,
    skills: seq<string>)

  /** One element read from disk. */
  datatype LoadedElement = LoadedElement(elementType: string, name: string, path: Path, content: string)

  /** What the service can raise to its caller. */
  datatype ServiceError =
    | NotFound(plugin: string)
    | NotADirectory(path: Path)
    | InvalidPluginName(reason: NameError)
    | InvalidElementType(given: string)
}

=== FILE: paths.dfy ===
/**
 * The part of `pathlib` the plugin service relies on, modelled lexically:
 * splitting a path string on '/', `Path.name`, `Path.stem`, the `/` join
 * operator, `Path.resolve()` as `.`/`..` normalisation, and the path guard
 * `PluginService._validate_safe_path` built from them.
 *
 * An absolute path is a sequence of segments below the file-system root.
 */
module Paths {
  import opened Wrappers

  const Separator: char := '/'
  const CurrentDir: string := "."
  const ParentDir: string := ".."

  /** Absolute path as segments below the root; `[]` is the root itself. */
  type Path = seq<string>

  // ---------------------------------------------------------------------------
  // Splitting and joining path strings
  // ---------------------------------------------------------------------------

  /** The segments of a path string, cut at every separator ("a//b" gives an empty middle segment). */
  function Split(s: string): (r: seq<string>)
    ensures |r| >= 1
    ensures forall i :: 0 <= i < |r| ==> Separator !in r[i]
    decreases |s|
  {
    if s == [] then [[]]
    else
      var rest := Split(s[1..]);
      if s[0] == Separator then [[]] + rest
      else [[s[0]] + rest[0]] + rest[1..]
  }

  /** Glues segments back together with one separator between neighbours. */
  function JoinSegments(segs: seq<string>): string
    requires |segs| >= 1
    decreases |segs|
  {
    if |segs| == 1 then segs[0] else segs[0] + [Separator] + JoinSegments(segs[1..])
  }

  /** Splitting loses nothing: joining the pieces gives the string back. */
  lemma {:induction false} SplitThenJoin(s: string)
    ensures JoinSegments(Split(s)) == s
    decreases |s|
  {
    if s != [] {
      var rest := Split(s[1..]);
      SplitThenJoin(s[1..]);
      if s[0] == Separator {
        assert ([[]] + rest)[1..] == rest;
      } else {
        var r := Split(s);
        assert r[0] == [s[0]] + rest[0];
        if |rest| > 1 {
          assert r[1..] == rest[1..];
        }
      }
    }
  }

  /** A segment free of separators splits to itself. */
  lemma {:induction false} SplitSingle(x: string)
    requires Separator !in x
    ensures Split(x) == [x]
    decreases |x|
  {
    if x != [] {
      assert Separator !in x[1..] by {
        forall i | 0 <= i < |x[1..]| ensures x[1..][i] != Separator {
          assert x[1..][i] == x[i + 1];
        }
      }
      SplitSingle(x[1..]);
      assert [x[0]] + x[1..] == x;
    }
  }

  /** `Split` on a string that starts with a separator. */
  lemma SplitConsSeparator(t: string)
    ensures Split([Separator] + t) == [[]] + Split(t)
  {
    assert ([Separator] + t)[0] == Separator && ([Separator] + t)[1..] == t;
  }

  /** `Split` on a string that starts with another character. */
  lemma SplitConsChar(c: char, t: string)
    requires c != Separator
    ensures Split([c] + t) == [[c] + Split(t)[0]] + Split(t)[1..]
  {
    assert ([c] + t)[0] == c && ([c] + t)[1..] == t;
  }

  /** Putting `x` in front of a non-empty `l` and then appending `r`. */
  lemma ConsFront<T>(x: T, l: seq<T>, r: seq<T>)
    requires l != []
    ensures (l + r)[0] == l[0]
    ensures [x] + (l + r)[1..] == ([x] + l[1..]) + r
  {
    assert (l + r)[1..] == l[1..] + r;
  }

  /** One step of `SplitAround` for a leading separator. */
  lemma SplitAroundSeparator(tail: string, b: string)
    requires Split(tail + [Separator] + b) == Split(tail) + Split(b)
    ensures Split([Separator] + tail + [Separator] + b) == Split([Separator] + tail) + Split(b)
  {
    var rest := tail + [Separator] + b;
    assert [Separator] + ((tail + [Separator]) + b) == ([Separator] + (tail + [Separator])) + b;
    assert [Separator] + (tail + [Separator]) == ([Separator] + tail) + [Separator];
    SplitConsSeparator(rest);
    SplitConsSeparator(tail);
    assert [[]] + (Split(tail) + Split(b)) == ([[]] + Split(tail)) + Split(b);
  }

  /** One step of `SplitAround` for a leading character other than the separator. */
  lemma SplitAroundChar(c: char, tail: string, b: string)
    requires c != Separator
    requires Split(tail + [Separator] + b) == Split(tail) + Split(b)
    ensures Split([c] + tail + [Separator] + b) == Split([c] + tail) + Split(b)
  {
    var rest := tail + [Separator] + b;
    assert [c] + ((tail + [Separator]) + b) == ([c] + (tail + [Separator])) + b;
    assert [c] + (tail + [Separator]) == ([c] + tail) + [Separator];
    SplitConsChar(c, rest);
    SplitConsChar(c, tail);
    var left := Split(tail);
    ConsFront([c] + left[0], left, Split(b));
  }

  /** Splitting distributes over a separator. */
  lemma {:induction false} SplitAround(a: string, b: string)
    ensures Split(a + [Separator] + b) == Split(a) + Split(b)
    decreases |a|
  {
    if a == [] {
      assert a + [Separator] + b == [Separator] + b;
      SplitConsSeparator(b);
    } else {
      SplitAround(a[1..], b);
      if a[0] == Separator {
        SplitAroundSeparator(a[1..], b);
      } else {
        SplitAroundChar(a[0], a[1..], b);
      }
      assert [a[0]] + a[1..] == a;
    }
  }

  /** Joining separator-free segments and splitting again gives the segments back. */
  lemma {:induction false} JoinThenSplit(segs: seq<string>)
    requires |segs| >= 1
    requires forall i :: 0 <= i < |segs| ==> Separator !in segs[i]
    ensures Split(JoinSegments(segs)) == segs
    decreases |segs|
  {
    SplitSingle(segs[0]);
    if |segs| > 1 {
      JoinThenSplit(segs[1..]);
      SplitAround(segs[0], JoinSegments(segs[1..]));
      assert [segs[0]] + segs[1..] == segs;
    }
  }

  /** A path string is absolute when it starts at the root. */
  predicate IsAbsolute(s: string) {
    |s| > 0 && s[0] == Separator
  }

  /** `Path(base) / relative`: an absolute right-hand side replaces the base. */
  function Join(base: seq<string>, relative: string): seq<string> {
    if IsAbsolute(relative) then Split(relative) else base + Split(relative)
  }

  // ---------------------------------------------------------------------------
  // Path.name and Path.stem
  // ---------------------------------------------------------------------------

  /** Segments that `pathlib` drops when it parses a path. */
  predicate IsNoise(seg: string) {
    seg == [] || seg == CurrentDir
  }

  /** The segments `pathlib` keeps, in order (`..` is kept). */
  function Meaningful(segs: seq<string>): (r: seq<string>)
    ensures |r| <= |segs|
    ensures forall i :: 0 <= i < |r| ==> !IsNoise(r[i]) && r[i] in segs
    decreases |segs|
  {
    if segs == [] then []
    else (if IsNoise(segs[0]) then [] else [segs[0]]) + Meaningful(segs[1..])
  }

  lemma {:induction false} MeaningfulConcat(a: seq<string>, b: seq<string>)
    ensures Meaningful(a + b) == Meaningful(a) + Meaningful(b)
    decreases |a|
  {
    if a == [] {
      assert a + b == b;
    } else {
      assert (a + b)[0] == a[0];
      assert (a + b)[1..] == a[1..] + b;
      MeaningfulConcat(a[1..], b);
    }
  }

  /** Segments without noise are kept as they are. */
  lemma {:induction false} MeaningfulOfClean(segs: seq<string>)
    requires forall i :: 0 <= i < |segs| ==> !IsNoise(segs[i])
    ensures Meaningful(segs) == segs
    decreases |segs|
  {
    if segs != [] {
      MeaningfulOfClean(segs[1..]);
      assert [segs[0]] + segs[1..] == segs;
    }
  }

  /** `Path(s).name`: the last kept segment, or "" when there is none. */
  function BaseName(s: string): (r: string)
    ensures Separator !in r && r != CurrentDir
    ensures r == [] <==> Meaningful(Split(s)) == []
  {
    var m := Meaningful(Split(s));
    if m == [] then [] else m[|m| - 1]
  }

  /** Position of the last occurrence of `c` in `s`. */
  function LastIndexOf(s: string, c: char): (r: Option<nat>)
    ensures r.Some? ==> r.value < |s| && s[r.value] == c
    ensures r.Some? ==> forall j :: r.value < j < |s| ==> s[j] != c
    ensures r.None? ==> c !in s
    decreases |s|
  {
    if s == [] then None
    else if s[|s| - 1] == c then Some(|s| - 1)
    else LastIndexOf(s[..|s| - 1], c)
  }

  /**
   * `PurePath.stem` applied to a name: the final `.suffix` is removed, but
   * only when that dot is neither the first nor the last character.
   */
  function Stem(name: string): (r: string)
    ensures r <= name
    ensures r != name ==> 0 < |r| < |name| - 1 && name[|r|] == '.' && '.' !in name[|r| + 1..]
    ensures forall i :: 0 < i < |name| - 1 && name[i] == '.' && '.' !in name[i + 1..] ==> r == name[..i]
  {
    match LastIndexOf(name, '.')
    case Some(i) =>
      assert forall j :: i < j < |name| ==> name[j] != '.';
      if 0 < i < |name| - 1 then name[..i] else name
    case None => name
  }

  /** `Path(s).stem`. */
  function PathStem(s: string): string {
    Stem(BaseName(s))
  }

  /** `x.ext` has stem `x` when `ext` holds no dot. */
  lemma StemOfName(x: string, ext: string)
    requires x != [] && ext != [] && '.' !in ext
    ensures Stem(x + ['.'] + ext) == x
  {
    var name := x + ['.'] + ext;
    assert name[|x|] == '.';
    assert name[|x| + 1..] == ext;
    assert name[..|x|] == x;
  }

  /** The last component of `dir/file` is `file`. */
  lemma BaseNameOfFile(dir: string, file: string)
    requires Separator !in file && !IsNoise(file)
    ensures BaseName(dir + [Separator] + file) == file
  {
    SplitAround(dir, file);
    SplitSingle(file);
    MeaningfulConcat(Split(dir), [file]);
    assert Meaningful([file]) == [file] by {
      assert [file][1..] == [];
    }
  }

  /** A file name `x.ext` under any directory has stem `x`. */
  lemma StemOfFile(dir: string, x: string, ext: string)
    requires x != [] && ext != []
    requires Separator !in x && Separator !in ext && '.' !in ext
    ensures PathStem(dir + [Separator] + x + ['.'] + ext) == x
  {
    var file := x + ['.'] + ext;
    assert Separator !in file;
    assert file != CurrentDir by { assert |file| >= 3; }
    assert dir + [Separator] + x + ['.'] + ext == dir + [Separator] + file;
    BaseNameOfFile(dir, file);
    StemOfName(x, ext);
  }

  // ---------------------------------------------------------------------------
  // Path.resolve(): lexical normalisation
  // ---------------------------------------------------------------------------

  /** A segment that names a real directory entry. */
  predicate IsPlain(seg: string) {
    seg != [] && seg != CurrentDir && seg != ParentDir
  }

  /** A resolved path: nothing left to normalise. */
  predicate Canonical(p: seq<string>) {
    forall i :: 0 <= i < |p| ==> IsPlain(p[i])
  }

  /** One normalisation step: noise is skipped, `..` climbs (the root is its own parent). */
  function Step(acc: seq<string>, seg: string): seq<string> {
    if IsNoise(seg) then acc
    else if seg == ParentDir then (if acc == [] then [] else acc[..|acc| - 1])
    else acc + [seg]
  }

  function NormalizeFrom(acc: seq<string>, segs: seq<string>): (r: seq<string>)
    ensures Canonical(acc) ==> Canonical(r)
    decreases |segs|
  {
    if segs == [] then acc else NormalizeFrom(Step(acc, segs[0]), segs[1..])
  }

  /** `Path.resolve()` of an absolute path, without symbolic links. */
  function Resolve(raw: seq<string>): (r: Path)
    ensures Canonical(r)
  {
    NormalizeFrom([], raw)
  }

  /** Normalising a concatenation is normalising its halves in turn. */
  lemma {:induction false} NormalizeAppend(acc: seq<string>, a: seq<string>, b: seq<string>)
    ensures NormalizeFrom(acc, a + b) == NormalizeFrom(NormalizeFrom(acc, a), b)
    decreases |a|
  {
    if a == [] {
      assert a + b == b;
    } else {
      assert (a + b)[0] == a[0];
      assert (a + b)[1..] == a[1..] + b;
      NormalizeAppend(Step(acc, a[0]), a[1..], b);
    }
  }

  /** Without `..`, normalising only appends the kept segments. */
  lemma {:induction false} NormalizeDescend(acc: seq<string>, segs: seq<string>)
    requires ParentDir !in segs
    ensures NormalizeFrom(acc, segs) == acc + Meaningful(segs)
    decreases |segs|
  {
    if segs != [] {
      assert ParentDir !in segs[1..] by {
        forall i | 0 <= i < |segs[1..]| ensures segs[1..][i] != ParentDir {
          assert segs[1..][i] == segs[i + 1];
        }
      }
      NormalizeDescend(Step(acc, segs[0]), segs[1..]);
    }
  }

  /** `k` parent steps. */
  function Ups(k: nat): (r: seq<string>)
    ensures |r| == k && forall i :: 0 <= i < k ==> r[i] == ParentDir
  {
    if k == 0 then [] else [ParentDir] + Ups(k - 1)
  }

  /** Climbing `k` levels from a path at least `k` deep drops its last `k` segments. */
  lemma {:induction false} NormalizeClimb(acc: seq<string>, k: nat)
    requires k <= |acc|
    ensures NormalizeFrom(acc, Ups(k)) == acc[..|acc| - k]
    decreases k
  {
    if k > 0 {
      var up := Ups(k);
      assert up[0] == ParentDir && up[1..] == Ups(k - 1);
      var parent := acc[..|acc| - 1];
      NormalizeClimb(parent, k - 1);
      assert parent[..|parent| - (k - 1)] == acc[..|acc| - k];
    }
  }

  /** A canonical path resolves to itself. */
  lemma CanonicalIsResolved(p: seq<string>)
    requires Canonical(p)
    ensures Resolve(p) == p
  {
    assert ParentDir !in p by {
      forall i | 0 <= i < |p| ensures p[i] != ParentDir {
        assert IsPlain(p[i]);
      }
    }
    NormalizeDescend([], p);
    assert forall i :: 0 <= i < |p| ==> !IsNoise(p[i]) by {
      forall i | 0 <= i < |p| ensures !IsNoise(p[i]) {
        assert IsPlain(p[i]);
      }
    }
    MeaningfulOfClean(p);
  }

  /** Resolving is idempotent. */
  lemma ResolveIdempotent(raw: seq<string>)
    ensures Resolve(Resolve(raw)) == Resolve(raw)
  {
    CanonicalIsResolved(Resolve(raw));
  }

  // ---------------------------------------------------------------------------
  // The path guard
  // ---------------------------------------------------------------------------

  /** Raised ("Invalid path ...") when `relative` leads outside `base`. */
  datatype GuardError = PathEscape(relative: string)

  /**
   * `_validate_safe_path`: join, resolve, and accept only when the result is
   * the resolved base itself or lies below it.
   */
  function ValidateSafePath(base: seq<string>, relative: string): (r: Result<Path, GuardError>)
    ensures r.Ok? <==> Resolve(base) <= Resolve(Join(base, relative))
    ensures r.Ok? ==> r.value == Resolve(Join(base, relative))
    ensures r.Ok? ==> Canonical(r.value) && Resolve(base) <= r.value
    ensures r.Err? ==> r.error == PathEscape(relative)
  {
    var baseResolved := Resolve(base);
    var full := Resolve(Join(base, relative));
    if baseResolved <= full then Ok(full) else Err(PathEscape(relative))
  }

  /**
   * A relative path without `..` is always accepted; it lands below the base
   * and keeps the relative path's last component as its own.
   */
  lemma GuardAcceptsDescending(base: seq<string>, relative: string)
    requires !IsAbsolute(relative)
    requires ParentDir !in Split(relative)
    ensures ValidateSafePath(base, relative) == Ok(Resolve(base) + Meaningful(Split(relative)))
    ensures BaseName(relative) != [] ==> ValidateSafePath(base, relative).value[|ValidateSafePath(base, relative).value| - 1] == BaseName(relative)
    ensures BaseName(relative) == [] ==> ValidateSafePath(base, relative) == Ok(Resolve(base))
  {
    var segs := Split(relative);
    NormalizeAppend([], base, segs);
    NormalizeDescend(Resolve(base), segs);
    if BaseName(relative) == [] {
      assert Resolve(base) + Meaningful(segs) == Resolve(base);
    }
  }

  /**
   * A relative path that first climbs `k` levels and then descends fewer than
   * `k` plain levels ends strictly above a base at least `k` deep: rejected.
   */
  lemma GuardRejectsClimb(base: seq<string>, relative: string, k: nat, rest: seq<string>)
    requires !IsAbsolute(relative)
    requires Meaningful(Split(relative)) == Ups(k) + rest
    requires ParentDir !in rest
    requires k <= |Resolve(base)| && |rest| < k
    ensures ValidateSafePath(base, relative) == Err(PathEscape(relative))
  {
    var segs := Split(relative);
    var b := Resolve(base);
    var full := Resolve(Join(base, relative));
    assert full == NormalizeFrom(b, segs) by {
      NormalizeAppend([], base, segs);
    }
    assert NormalizeFrom(b, segs) == NormalizeFrom(b, Ups(k) + rest) by {
      NoiseIgnored(b, segs);
    }
    assert forall i :: 0 <= i < |rest| ==> !IsNoise(rest[i]) by {
      CleanSuffix(Ups(k), rest);
    }
    assert |full| < |b| by {
      ClimbThenDescend(b, k, rest);
    }
  }

  /** A suffix of noise-free segments is noise-free. */
  lemma CleanSuffix(pre: seq<string>, rest: seq<string>)
    requires forall i :: 0 <= i < |pre + rest| ==> !IsNoise((pre + rest)[i])
    ensures forall i :: 0 <= i < |rest| ==> !IsNoise(rest[i])
  {
    forall i | 0 <= i < |rest| ensures !IsNoise(rest[i]) {
      assert (pre + rest)[|pre| + i] == rest[i];
    }
  }

  /** Climbing `k` levels and then descending through plain segments. */
  lemma ClimbThenDescend(acc: seq<string>, k: nat, rest: seq<string>)
    requires k <= |acc| && ParentDir !in rest
    requires forall i :: 0 <= i < |rest| ==> !IsNoise(rest[i])
    ensures NormalizeFrom(acc, Ups(k) + rest) == acc[..|acc| - k] + rest
  {
    NormalizeAppend(acc, Ups(k), rest);
    NormalizeClimb(acc, k);
    NormalizeDescend(acc[..|acc| - k], rest);
    MeaningfulOfClean(rest);
  }

  /** Normalisation does not see the segments `pathlib` drops. */
  lemma {:induction false} NoiseIgnored(acc: seq<string>, segs: seq<string>)
    ensures NormalizeFrom(acc, segs) == NormalizeFrom(acc, Meaningful(segs))
    decreases |segs|
  {
    if segs != [] {
      NoiseIgnored(Step(acc, segs[0]), segs[1..]);
      var rest := Meaningful(segs[1..]);
      if IsNoise(segs[0]) {
        assert Meaningful(segs) == rest;
      } else {
        assert Meaningful(segs) == [segs[0]] + rest;
        assert ([segs[0]] + rest)[1..] == rest;
      }
    }
  }

  /** The traversal attempt used by the test suite, `../../../etc/passwd`. */
  const TraversalAttempt: string := JoinSegments(Ups(3) + ["etc", "passwd"])

  /** Segments spelt without a separator. */
  predicate SeparatorFree(segs: seq<string>) {
    forall i :: 0 <= i < |segs| ==> Separator !in segs[i]
  }

  lemma TraversalSplit()
    ensures Split(TraversalAttempt) == Ups(3) + ["etc", "passwd"]
  {
    var segs := Ups(3) + ["etc", "passwd"];
    assert SeparatorFree(segs) by {
      assert segs == [ParentDir, ParentDir, ParentDir, "etc", "passwd"];
    }
    JoinThenSplit(segs);
  }

  /** What `pathlib` keeps of a path that climbs three levels and names two plain segments. */
  lemma ThreeUpsMeaningful(relative: string, a: string, b: string)
    requires Split(relative) == Ups(3) + [a, b]
    requires !IsNoise(a) && !IsNoise(b)
    ensures Meaningful(Split(relative)) == Ups(3) + [a, b]
  {
    MeaningfulConcat(Ups(3), [a, b]);
    MeaningfulOfUps(3);
    MeaningfulOfClean([a, b]);
  }

  /** Any path that splits like the traversal attempt is refused below a base three levels deep. */
  lemma ClimbThreeRefused(base: seq<string>, relative: string)
    requires |Resolve(base)| >= 3
    requires Split(relative) == Ups(3) + ["etc", "passwd"]
    requires !IsAbsolute(relative)
    ensures ValidateSafePath(base, relative).Err?
  {
    ThreeUpsMeaningful(relative, "etc", "passwd");
    GuardRejectsClimb(base, relative, 3, ["etc", "passwd"]);
  }

  /** `../../../etc/passwd` is refused against every base at least three levels deep. */
  lemma TraversalRefused(base: seq<string>)
    requires |Resolve(base)| >= 3
    ensures ValidateSafePath(base, TraversalAttempt).Err?
  {
    TraversalSplit();
    ClimbThreeRefused(base, TraversalAttempt);
  }

  lemma {:induction false} MeaningfulOfUps(k: nat)
    ensures Meaningful(Ups(k)) == Ups(k)
  {
    MeaningfulOfClean(Ups(k));
  }

  /** The nested path used by the test suite, `plugins/test-plugin/SKILL.md`. */
  const NestedSkillPath: string := JoinSegments(["plugins", "test-plugin", "SKILL.md"])

  lemma NestedSplit()
    ensures Split(NestedSkillPath) == ["plugins", "test-plugin", "SKILL.md"]
  {
    JoinThenSplit(["plugins", "test-plugin", "SKILL.md"]);
  }

  /** Any relative path made of three plain segments is accepted and keeps them. */
  lemma ThreePlainAccepted(base: seq<string>, relative: string, a: string, b: string, c: string)
    requires Split(relative) == [a, b, c]
    requires IsPlain(a) && IsPlain(b) && IsPlain(c)
    requires !IsAbsolute(relative)
    ensures ValidateSafePath(base, relative) == Ok(Resolve(base) + [a, b, c])
  {
    MeaningfulOfClean([a, b, c]);
    GuardAcceptsDescending(base, relative);
  }

  /** The nested path used by the test suite is accepted below any base and ends in `SKILL.md`. */
  lemma NestedPathAccepted(base: seq<string>)
    ensures ValidateSafePath(base, NestedSkillPath) == Ok(Resolve(base) + ["plugins", "test-plugin", "SKILL.md"])
  {
    NestedSplit();
    ThreePlainAccepted(base, NestedSkillPath, "plugins", "test-plugin", "SKILL.md");
  }

  /** The absolute path `/etc/passwd`: an empty first segment, then `etc` and `passwd`. */
  const AbsoluteAttempt: string := JoinSegments([[], "etc", "passwd"])

  lemma AbsoluteAttemptSplit()
    ensures IsAbsolute(AbsoluteAttempt)
    ensures Split(AbsoluteAttempt) == [[], "etc", "passwd"]
  {
    var segs: seq<string> := [[], "etc", "passwd"];
    assert SeparatorFree(segs) by {
      assert segs[1] == "etc" && segs[2] == "passwd";
    }
    JoinThenSplit(segs);
    assert AbsoluteAttempt == [] + [Separator] + JoinSegments(segs[1..]);
  }

  /**
   * An absolute path replaces the base: the guard judges where it lands, not
   * the base it was joined to.
   */
  lemma AbsoluteIgnoresBase(base: seq<string>, relative: string)
    requires IsAbsolute(relative)
    ensures Resolve(Join(base, relative)) == Resolve(Split(relative))
  {
  }

  /** `/etc/passwd` is refused against every base that does not lie under `/etc`. */
  lemma AbsoluteAttemptRefused(base: seq<string>)
    requires Resolve(base) != [] && Resolve(base)[0] != "etc"
    ensures ValidateSafePath(base, AbsoluteAttempt) == Err(PathEscape(AbsoluteAttempt))
  {
    AbsoluteAttemptSplit();
    var segs: seq<string> := [[], "etc", "passwd"];
    assert Resolve(segs) == ["etc", "passwd"] by {
      NormalizeDescend([], segs);
      MeaningfulConcat([[]], ["etc", "passwd"]);
      assert [[]] + ["etc", "passwd"] == segs;
      MeaningfulOfClean(["etc", "passwd"]);
      var noise: seq<string> := [[]];
      assert Meaningful(noise) == [] by {
        assert noise[1..] == [];
      }
    }
    assert Resolve(Join(base, AbsoluteAttempt)) == ["etc", "passwd"];
  }
}

=== FILE: plugin_index.dfy ===
/**
 * The plugin index of `PluginService`: the listing (`get_plugin_list`),
 * element-name extraction, `describe_plugin`, `find_plugin_in_marketplace`,
 * and the marketplace-directory lookup behind its LRU memo table.
 */
module PluginIndex {
  import opened Wrappers
  import opened Paths
  import opened Models
  import opened Manifests
  import opened Collections
  import Lru

  // ---------------------------------------------------------------------------
  // Element-name extraction
  // ---------------------------------------------------------------------------

  /** The listing name of one entry: a path string's stem, an object's `name`, or nothing. */
  function EntryName(e: Entry): Option<string> {
    match e
    case PathEntry(p) => Some(PathStem(p))
    case DictEntry(n) => n
    case OtherEntry => None
  }

  /** `_extract_element_names`: the names of the entries that have one, in entry order. */
  function ExtractNames(entries: seq<Entry>): (r: seq<string>)
    ensures |r| <= |entries|
    ensures (forall i :: 0 <= i < |entries| ==> entries[i].PathEntry?) ==>
      |r| == |entries| && forall i :: 0 <= i < |r| ==> r[i] == PathStem(entries[i].path)
    ensures (forall i :: 0 <= i < |entries| ==> EntryName(entries[i]).None?) ==> r == []
    ensures forall n :: n in r ==> exists i :: 0 <= i < |entries| && EntryName(entries[i]) == Some(n)
  {
    FilterMap(EntryName, entries)
  }

  /** Extraction works entry by entry: it distributes over concatenation. */
  lemma ExtractNamesConcat(a: seq<Entry>, b: seq<Entry>)
    ensures ExtractNames(a + b) == ExtractNames(a) + ExtractNames(b)
  {
    FilterMapConcat(EntryName, a, b);
  }

  /** What a single entry contributes: its stem, its `name`, or nothing. */
  lemma ExtractNamesSingle(e: Entry)
    ensures e.PathEntry? ==> ExtractNames([e]) == [PathStem(e.path)]
    ensures e.DictEntry? && e.name.Some? ==> ExtractNames([e]) == [e.name.value]
    ensures e.OtherEntry? || (e.DictEntry? && e.name.None?) ==> ExtractNames([e]) == []
  {
    assert [e][1..] == [];
  }

  /** A path entry such as `./SKILL.md` or `./agents/helper.md` is listed by its file stem. */
  lemma PathEntryListedByStem(dir: string, x: string, ext: string)
    requires x != [] && ext != []
    requires Separator !in x && Separator !in ext && '.' !in ext
    ensures ExtractNames([PathEntry(dir + [Separator] + x + ['.'] + ext)]) == [x]
  {
    ExtractNamesSingle(PathEntry(dir + [Separator] + x + ['.'] + ext));
    StemOfFile(dir, x, ext);
  }

  // ---------------------------------------------------------------------------
  // Listing
  // ---------------------------------------------------------------------------

  /** `PluginInfo(...)` built from one plugin object; its name validator may raise. */
  function Summarize(p: PluginDef): (r: Result<PluginInfo, ServiceError>)
    ensures r.Ok? <==> ValidatePluginName(p.name.GetOr("")).Ok?
    ensures r.Err? ==> r.error == InvalidPluginName(ValidatePluginName(p.name.GetOr("")).error)
    ensures r.Ok? ==> r.value.name == p.name.GetOr("") && r.value.description == p.description.GetOr("")
    ensures r.Ok? ==> r.value.agents == ExtractNames(p.agents) && r.value.commands == ExtractNames(p.commands)
    ensures r.Ok? ==> r.value.skills == ExtractNames(p.skills)
  {
    var name := p.name.GetOr("");
    match ValidatePluginName(name)
    case Err(e) => Err(InvalidPluginName(e))
    case Ok(_) =>
      Ok(PluginInfo(name, p.description.GetOr(""), ExtractNames(p.agents), ExtractNames(p.commands), ExtractNames(p.skills)))
  }

  /** Summaries of all plugins in order; the first invalid name aborts. */
  function SummarizeAll(ps: seq<PluginDef>): (r: Result<seq<PluginInfo>, ServiceError>)
    ensures r.Ok? <==> forall i :: 0 <= i < |ps| ==> Summarize(ps[i]).Ok?
    ensures r.Ok? ==> |r.value| == |ps| && forall i :: 0 <= i < |ps| ==> Summarize(ps[i]) == Ok(r.value[i])
    ensures r.Err? ==> exists i ::
      && 0 <= i < |ps|
      && Summarize(ps[i]) == Err(r.error)
      && forall j :: 0 <= j < i ==> Summarize(ps[j]).Ok?
  {
    MapAll(Summarize, ps)
  }

  /**
   * `get_plugin_list`: every plugin of every readable marketplace, in scan
   * order, duplicates kept; a missing root lists nothing.
   */
  function ListPlugins(env: Env): (r: Result<seq<PluginInfo>, ServiceError>)
    ensures env.root !in env.fs ==> r == Ok([])
    ensures IsFile(env.fs, env.root) ==> r == Err(NotADirectory(env.root))
    ensures Scan(env).Ok? ==> (r.Ok? <==> forall i :: 0 <= i < |AllPlugins(Scan(env).value)| ==>
      ValidatePluginName(AllPlugins(Scan(env).value)[i].name.GetOr("")).Ok?)
    ensures r.Ok? ==> Scan(env).Ok? && |r.value| == |AllPlugins(Scan(env).value)|
    ensures r.Ok? ==> forall i :: 0 <= i < |r.value| ==>
      var p := AllPlugins(Scan(env).value)[i];
      && r.value[i].name == p.name.GetOr("")
      && r.value[i].description == p.description.GetOr("")
      && r.value[i].agents == ExtractNames(p.agents)
      && r.value[i].commands == ExtractNames(p.commands)
      && r.value[i].skills == ExtractNames(p.skills)
  {
    match Scan(env)
    case Err(e) => Err(e)
    case Ok(ms) =>
      NamesDecideListing(AllPlugins(ms));
      SummarizeAll(AllPlugins(ms))
  }

  /** Only plugin names can make a listing fail. */
  lemma NamesDecideListing(ps: seq<PluginDef>)
    ensures SummarizeAll(ps).Ok? <==> forall i :: 0 <= i < |ps| ==> ValidatePluginName(ps[i].name.GetOr("")).Ok?
  {
    forall i | 0 <= i < |ps|
      ensures Summarize(ps[i]).Ok? <==> ValidatePluginName(ps[i].name.GetOr("")).Ok?
    {
    }
  }

  /** Listing two groups of plugins is listing each and concatenating. */
  lemma SummarizeAllConcat(a: seq<PluginDef>, b: seq<PluginDef>)
    requires SummarizeAll(a).Ok? && SummarizeAll(b).Ok?
    ensures SummarizeAll(a + b) == Ok(SummarizeAll(a).value + SummarizeAll(b).value)
  {
    MapAllConcat(Summarize, a, b);
  }

  /** The listing of a scan is the concatenation, in marketplace order, of each marketplace's listing. */
  lemma ListingConcatenatesMarketplaces(ms1: seq<Marketplace>, ms2: seq<Marketplace>)
    requires SummarizeAll(AllPlugins(ms1)).Ok? && SummarizeAll(AllPlugins(ms2)).Ok?
    ensures SummarizeAll(AllPlugins(ms1 + ms2)) == Ok(SummarizeAll(AllPlugins(ms1)).value + SummarizeAll(AllPlugins(ms2)).value)
  {
    AllPluginsConcat(ms1, ms2);
    SummarizeAllConcat(AllPlugins(ms1), AllPlugins(ms2));
  }

  // ---------------------------------------------------------------------------
  // Describe
  // ---------------------------------------------------------------------------

  /** Position of the first plugin called `name`. */
  function FindIn(ps: seq<PluginDef>, name: string): (r: Option<nat>)
    ensures r.Some? ==> r.value < |ps| && ps[r.value].name == Some(name)
    ensures r.Some? ==> forall j :: 0 <= j < r.value ==> ps[j].name != Some(name)
    ensures r.None? ==> forall j :: 0 <= j < |ps| ==> ps[j].name != Some(name)
    decreases |ps|
  {
    if ps == [] then None
    else if ps[0].name == Some(name) then Some(0)
    else
      match FindIn(ps[1..], name)
      case Some(i) => Some(i + 1)
      case None => None
  }

  /** The first match in `a + b` is the first in `a`, else the first in `b` shifted past `a`. */
  lemma {:induction false} FindInConcat(a: seq<PluginDef>, b: seq<PluginDef>, name: string)
    ensures FindIn(a, name).Some? ==> FindIn(a + b, name) == FindIn(a, name)
    ensures FindIn(a, name).None? && FindIn(b, name).Some? ==> FindIn(a + b, name) == Some(|a| + FindIn(b, name).value)
    ensures FindIn(a, name).None? && FindIn(b, name).None? ==> FindIn(a + b, name).None?
    decreases |a|
  {
    if a == [] {
      assert a + b == b;
    } else {
      assert (a + b)[0] == a[0];
      assert (a + b)[1..] == a[1..] + b;
      if a[0].name != Some(name) {
        FindInConcat(a[1..], b, name);
      }
    }
  }

  /** Where a lookup stops: a marketplace index and a plugin index within it. */
  datatype Hit = Hit(market: nat, plugin: nat)

  /** The first marketplace, in scan order, listing `name`, and the first such plugin in it. */
  function FirstMatch(ms: seq<Marketplace>, name: string): (r: Option<Hit>)
    ensures r.Some? ==> r.value.market < |ms| && FindIn(ms[r.value.market].plugins, name) == Some(r.value.plugin)
    ensures r.Some? ==> forall k :: 0 <= k < r.value.market ==> FindIn(ms[k].plugins, name).None?
    ensures r.None? ==> forall k :: 0 <= k < |ms| ==> FindIn(ms[k].plugins, name).None?
    decreases |ms|
  {
    if ms == [] then None
    else
      match FindIn(ms[0].plugins, name)
      case Some(j) => Some(Hit(0, j))
      case None =>
        match FirstMatch(ms[1..], name)
        case Some(h) => Some(Hit(h.market + 1, h.plugin))
        case None => None
  }

  /** The match found marketplace by marketplace is the first match of the flattened listing. */
  lemma {:induction false} FirstMatchIsFirstInScanOrder(ms: seq<Marketplace>, name: string)
    ensures FirstMatch(ms, name).None? <==> FindIn(AllPlugins(ms), name).None?
    ensures FirstMatch(ms, name).Some? ==>
      var h := FirstMatch(ms, name).value;
      AllPlugins(ms)[FindIn(AllPlugins(ms), name).value] == ms[h.market].plugins[h.plugin]
    decreases |ms|
  {
    if ms != [] {
      var rest := ms[1..];
      var first, others := ms[0].plugins, AllPlugins(rest);
      assert AllPlugins(ms) == first + others;
      FindInConcat(first, others, name);
      FirstMatchIsFirstInScanOrder(rest, name);
      match FindIn(first, name)
      case Some(j) =>
        assert (first + others)[j] == first[j];
      case None =>
        match FirstMatch(rest, name)
        case None =>
        case Some(h') =>
          var k := FindIn(others, name).value;
          assert (first + others)[|first| + k] == others[k];
          assert FirstMatch(ms, name) == Some(Hit(h'.market + 1, h'.plugin));
          assert ms[h'.market + 1] == rest[h'.market];
    }
  }

  /** `describe_plugin`'s record for a found plugin. */
  datatype PluginDetail = PluginDetail(name: string, owner: Option<Fields>, metadata: Option<Fields>, plugins: seq<PluginDef>)

  /** Python truthiness of an optional object: present and non-empty. */
  predicate Truthy(o: Option<Fields>) {
    o.Some? && o.value != map[]
  }

  /** Python's `a or b` on optional objects: an absent or empty object is falsy. */
  function OrElse(a: Option<Fields>, b: Option<Fields>): (r: Option<Fields>)
    ensures Truthy(a) ==> r == a
    ensures !Truthy(a) ==> r == b
    ensures Truthy(r) <==> Truthy(a) || Truthy(b)
  {
    if Truthy(a) then a else b
  }

  /**
   * `describe_plugin`: the first plugin called `name` in scan order, with the
   * owner of its marketplace and its own metadata, or the marketplace's when
   * its own is absent or empty. Not found when nothing matches.
   */
  function DescribePlugin(env: Env, name: string): (r: Result<PluginDetail, ServiceError>)
    ensures env.root !in env.fs ==> r == Err(NotFound(name))
    ensures IsFile(env.fs, env.root) ==> r == Err(NotADirectory(env.root))
    ensures Scan(env).Ok? ==> (r.Ok? <==> exists p :: p in AllPlugins(Scan(env).value) && p.name == Some(name))
    ensures Scan(env).Ok? && r.Err? ==> r.error == NotFound(name)
    ensures r.Ok? ==> r.value.name == name && |r.value.plugins| == 1 && r.value.plugins[0].name == Some(name)
    ensures r.Ok? ==> exists m ::
      && m in Scan(env).value
      && r.value.plugins[0] in m.plugins
      && r.value.owner == m.owner
      && r.value.metadata == OrElse(r.value.plugins[0].metadata, m.metadata)
    ensures r.Ok? ==> exists k ::
      && 0 <= k < |Scan(env).value|
      && FindIn(Scan(env).value[k].plugins, name).Some?
      && (forall j :: 0 <= j < k ==> FindIn(Scan(env).value[j].plugins, name).None?)
      && r.value.plugins[0] == Scan(env).value[k].plugins[FindIn(Scan(env).value[k].plugins, name).value]
      && r.value.owner == Scan(env).value[k].owner
      && r.value.metadata == OrElse(r.value.plugins[0].metadata, Scan(env).value[k].metadata)
  {
    match Scan(env)
    case Err(e) => Err(e)
    case Ok(ms) =>
      FirstMatchIsFirstInScanOrder(ms, name);
      match FirstMatch(ms, name)
      case None => Err(NotFound(name))
      case Some(h) =>
        var m := ms[h.market];
        var p := m.plugins[h.plugin];
        Ok(PluginDetail(name, m.owner, OrElse(p.metadata, m.metadata), [p]))
  }

  /** The plugin `describe_plugin` returns is the first plugin called `name` in the flattened scan. */
  lemma DescribeReturnsFirstInScanOrder(env: Env, name: string)
    requires DescribePlugin(env, name).Ok?
    ensures Scan(env).Ok?
    ensures FindIn(AllPlugins(Scan(env).value), name).Some?
    ensures DescribePlugin(env, name).value.plugins ==
      [AllPlugins(Scan(env).value)[FindIn(AllPlugins(Scan(env).value), name).value]]
  {
    FirstMatchIsFirstInScanOrder(Scan(env).value, name);
  }

  /** A plugin `describe_plugin` finds appears in the listing whenever the listing succeeds. */
  lemma DescribedPluginIsListed(env: Env, name: string)
    requires DescribePlugin(env, name).Ok? && ListPlugins(env).Ok?
    ensures exists i :: 0 <= i < |ListPlugins(env).value| && ListPlugins(env).value[i].name == name
  {
    DescribeReturnsFirstInScanOrder(env, name);
    var i := FindIn(AllPlugins(Scan(env).value), name).value;
    assert ListPlugins(env).value[i].name == name;
  }

  /**
   * `find_plugin_in_marketplace`: the plugin definition `describe_plugin`
   * found, or `None` when it raised not-found.
   */
  function FindPluginInMarketplace(env: Env, name: string): (r: Result<Option<PluginDef>, ServiceError>)
    ensures r.Err? <==> IsFile(env.fs, env.root)
    ensures r.Ok? && r.value.Some? <==> DescribePlugin(env, name).Ok?
    ensures r.Ok? && r.value.Some? ==> r.value.value.name == Some(name) && r.value.value == DescribePlugin(env, name).value.plugins[0]
  {
    match DescribePlugin(env, name)
    case Err(NotFound(_)) => Ok(None)
    case Err(e) => Err(e)
    case Ok(detail) =>
      match FindIn(detail.plugins, name)
      case Some(i) => Ok(Some(detail.plugins[i]))
      case None => Ok(None)
  }

  // ---------------------------------------------------------------------------
  // Marketplace-directory lookup
  // ---------------------------------------------------------------------------

  /**
   * The body of `_find_plugin_marketplace_dir_cached`: the directory of the
   * first marketplace listing `name`; `None` when the root is missing or no
   * marketplace lists it.
   */
  function LocateUncached(env: Env, name: string): (r: Result<Option<Path>, ServiceError>)
    ensures env.root !in env.fs ==> r == Ok(None)
    ensures r.Err? <==> IsFile(env.fs, env.root)
    ensures r.Err? ==> r.error == NotADirectory(env.root)
    ensures r.Ok? && r.value.Some? ==>
      && ReadMarketplace(env, r.value.value).Some?
      && FindIn(ReadMarketplace(env, r.value.value).value.plugins, name).Some?
    ensures r.Ok? && r.value.Some? ==> exists k ::
      && 0 <= k < |Scan(env).value|
      && Scan(env).value[k].dir == r.value.value
      && FindIn(Scan(env).value[k].plugins, name).Some?
      && forall j :: 0 <= j < k ==> FindIn(Scan(env).value[j].plugins, name).None?
    ensures r == Ok(None) <==>
      Scan(env).Ok? && forall k :: 0 <= k < |Scan(env).value| ==> FindIn(Scan(env).value[k].plugins, name).None?
  {
    match Scan(env)
    case Err(e) => Err(e)
    case Ok(ms) =>
      match FirstMatch(ms, name)
      case Some(h) => Ok(Some(ms[h.market].dir))
      case None => Ok(None)
  }

  /** The directory lookup and `describe_plugin` agree on whether, and from where, a plugin is found. */
  lemma LocateAgreesWithDescribe(env: Env, name: string)
    ensures LocateUncached(env, name).Ok? && LocateUncached(env, name).value.Some? <==> DescribePlugin(env, name).Ok?
    ensures LocateUncached(env, name) == Ok(None) <==> DescribePlugin(env, name) == Err(NotFound(name))
    ensures DescribePlugin(env, name).Ok? ==>
      var m := ReadMarketplace(env, LocateUncached(env, name).value.value).value;
      && DescribePlugin(env, name).value.owner == m.owner
      && DescribePlugin(env, name).value.plugins[0] in m.plugins
      && DescribePlugin(env, name).value.metadata == OrElse(DescribePlugin(env, name).value.plugins[0].metadata, m.metadata)
  {
  }

  /** Memo-table key: the marketplaces directory (as a string in the source) and the plugin name. */
  datatype CacheKey = CacheKey(root: Path, plugin: string)

  /** The process-wide memo table of the lookup. */
  type DirCache = Lru.Cache<CacheKey, Option<Path>>

  /**
   * `find_plugin_marketplace_dir`: answer from the memo table when the key is
   * cached (refreshing its recency), otherwise scan and memoise the answer,
   * `None` included. A raised error is not memoised.
   */
  function FindPluginMarketplaceDir(cache: DirCache, env: Env, name: string): (out: (Result<Option<Path>, ServiceError>, DirCache))
    requires Lru.Valid(cache)
    ensures Lru.Valid(out.1) && |out.1.entries| <= Lru.Capacity
    ensures Lru.Get(cache, CacheKey(env.root, name)).Some? ==> out.0 == Ok(Lru.Get(cache, CacheKey(env.root, name)).value)
    ensures Lru.Get(cache, CacheKey(env.root, name)).None? ==> out.0 == LocateUncached(env, name)
    ensures out.0.Ok? ==> Lru.Get(out.1, CacheKey(env.root, name)) == Some(out.0.value)
    ensures out.0.Err? ==> out.1 == cache
    ensures Lru.Get(cache, CacheKey(env.root, name)).Some? ==> out.1 == Lru.Touch(cache, CacheKey(env.root, name))
    ensures Lru.Get(cache, CacheKey(env.root, name)).None? && out.0.Ok? ==>
      out.1 == Lru.Insert(cache, CacheKey(env.root, name), out.0.value)
  {
    var key := CacheKey(env.root, name);
    match Lru.Get(cache, key)
    case Some(v) => (Ok(v), Lru.Touch(cache, key))
    case None =>
      match LocateUncached(env, name)
      case Err(e) => (Err(e), cache)
      case Ok(v) => (Ok(v), Lru.Insert(cache, key, v))
  }

  /** Every memoised answer for this root is what an uncached scan of `env` returns. */
  ghost predicate Consistent(cache: DirCache, env: Env) {
    forall k, v :: Lru.Get(cache, k) == Some(v) && k.root == env.root ==> LocateUncached(env, k.plugin) == Ok(v)
  }

  /** The table starts empty, so it starts consistent with any file system. */
  lemma EmptyCacheConsistent(env: Env)
    ensures Consistent(Lru.Empty(), env)
  {
  }

  /**
   * Against an unchanged file system the memo table is invisible: the lookup
   * answers what a fresh scan answers and the table stays consistent.
   */
  lemma CachedLookupMatchesScan(cache: DirCache, env: Env, name: string)
    requires Lru.Valid(cache) && Consistent(cache, env)
    ensures FindPluginMarketplaceDir(cache, env, name).0 == LocateUncached(env, name)
    ensures Consistent(FindPluginMarketplaceDir(cache, env, name).1, env)
  {
    var key := CacheKey(env.root, name);
    var out := FindPluginMarketplaceDir(cache, env, name);
    if Lru.Get(cache, key).Some? {
      assert LocateUncached(env, key.plugin) == Ok(Lru.Get(cache, key).value);
    }
    forall k, v | Lru.Get(out.1, k) == Some(v) && k.root == env.root
      ensures LocateUncached(env, k.plugin) == Ok(v)
    {
      if k != key {
        assert Lru.Get(cache, k) == Some(v);
      }
    }
  }

  /**
   * A repeated lookup of a key that was answered returns the identical
   * answer, whatever happened to the file system in between.
   */
  lemma RepeatedLookupIsStable(cache: DirCache, env1: Env, env2: Env, name: string)
    requires Lru.Valid(cache)
    requires FindPluginMarketplaceDir(cache, env1, name).0.Ok?
    requires env2.root == env1.root
    ensures FindPluginMarketplaceDir(FindPluginMarketplaceDir(cache, env1, name).1, env2, name).0 ==
      FindPluginMarketplaceDir(cache, env1, name).0
  {
  }
}

=== FILE: wrappers.dfy ===
/** Failure-carrying wrappers shared by every module of the model. */
module Wrappers {

  /** A value that may be absent (Python's `None`). */
  datatype Option<T> = None | Some(value: T) {

    /** The carried value, or `default` when absent (`d.get(k, default)`). */
    function GetOr(default: T): T {
      match this
      case Some(v) => v
      case None => default
    }
  }

  /** The outcome of an operation that can raise: a value or the error raised. */
  datatype Result<T, E> = Ok(value: T) | Err(error: E)
}
